=== FILE: README.md ===
# Circley front end — a Dafny model of its routing and screen logic

This project models the client-side logic of the Circley recovery-support
front end: the pieces of its React screens that decide something, written
as pure Dafny functions over immutable data, with their properties proved.

- **Router** (`router.dfy`): the hash router of `src/index.jsx`.
  - `normalizePath` is modelled as a function.
  - The browser's `location.hash` and the router's `path` state form a small machine. Its steps are mount, `navigate`, the `hashchange` listener, and the effect that refills an emptied hash.
- **Routes** (`routes.dfy`): the route `switch` of the two application shells, `src/index.jsx` and `src/App.jsx`.
  - Each switch is compared with a route table.
  - The `App.jsx` shell drops the query before dispatching.
  - The Log screen picks a sub-view from the path.
- **BottomNav** (`bottom_nav.dfy`): the "active tab" test in both of its versions. One normalises paths; the other compares them as written.
- **Session** (`session.dfy`): signing in, signing up and signing out, the username taken from the email, and the `/logout/` route.
- **Forms** (`forms.dfy`): the submit checks of the login, sign-up and change-password forms in `src/index.jsx`.
- **HomeHelpers** (`home_helpers.dfy`): the helpers of the home screen.
  - `clamp` and `pad2`.
  - `splitSeconds`.
  - The 32-bit string hash behind `dailyIndex`.
  - The cycling of the sobriety counter's display modes.
- **UpdatesDeck** (`updates_deck.dfy`): the stacked update cards of the home screen.
  - The index operations.
  - The three-card window that is drawn.
  - The pointer gesture with its axis lock and its 110 px swipe threshold.
- **CardStack** (`card_stack.dfy`): the generic swipeable stack of `src/CardStack.jsx`. It has mouse and touch handlers, a 50 px threshold, and a render with its empty fallback.
- **SignupFlow** (`signup_flow.dfy`): the two-step sign-up screen of `src/Signup.jsx`.
- **CheckIn** (`check_in.dfy`): the check-in screen.
  - The search filter over the built-in places.
  - Selecting a place, and the confirmation card.
- **Cookies** (`cookies.dfy`): the `getCookie` reader of the CSRF token.
- **Strings** (`strings.dfy`) and **Optional** (`optional.dfy`) hold the JavaScript string operations the screens use (`startsWith`, `includes`, `toLowerCase`, `trim`, `split`, decimal printing) and an option type.

Each operation is stated twice:

- once as the source computes it;
- once through a partner that does not repeat its body: an inverse, an invariant, a uniqueness statement or a reference definition.

Lemmas connect the two for all inputs.

Where the code departs from what it evidently means to do, the model follows the code in the cases below. The one exception is the `/logout/` render loop listed under "Left out", where the model takes the intended outcome.

- **Leading slashes:** normalisation only adds a `/` when one is missing. It does not collapse several leading slashes (`Router.NormalizeKeepsDoubleSlash`).
- **Card stack reflow:** `src/CardStack.jsx` keeps its index when its list of items changes; the deck in `src/home.jsx` re-clamps it. See "Findings".

## Model

| member | source | states |
|---|---|---|
| Strings.IncludesIffOccurs | src/CheckIn.jsx:49-51 | the left-to-right scan used for `includes` succeeds exactly when the text occurs at some position |
| Strings.IncludesNeedsRoom | src/CheckIn.jsx:49-51 | nothing longer than a string occurs in it |
| Strings.ToLower | src/CheckIn.jsx:46 | lowercasing keeps the length, leaves no capital letter, keeps every other character and turns each capital into its small letter |
| Strings.ToLowerFixedIff | src/CheckIn.jsx:46 | a text is unchanged by lowercasing exactly when it has no capital, so lowercasing twice is lowercasing once |
| Strings.Trim | src/CheckIn.jsx:45 | `trim` gives the empty text exactly for blank input; otherwise both ends of the result are non-whitespace |
| Strings.TrimRemovesOuterWhitespace | src/CheckIn.jsx:45 | the result of `trim` is a slice of the input with only whitespace before and after it |
| Strings.TrimStart | src/CheckIn.jsx:45 | the leading whitespace is removed and nothing else: the result is a suffix starting with non-whitespace, and only whitespace precedes it |
| Strings.TrimEnd | src/CheckIn.jsx:45 | the trailing whitespace is removed and nothing else: the result is a prefix ending with non-whitespace, and only whitespace follows it |
| Strings.FirstIndexOf | src/App.jsx:31 | the position of the first occurrence of a character: it holds that character and none comes before it |
| Strings.TrimFromNonBlankStart | src/pages/Login.jsx:9 | a string that does not start with whitespace loses only trailing whitespace to `trim` |
| Strings.TrimKeepsInner | src/pages/Login.jsx:9 | `trim` leaves a string with non-whitespace at both ends unchanged |
| Strings.Split | src/pages/Login.jsx:7 | `split` on one character yields at least one piece, and no piece contains the separator |
| Strings.JoinSplit | src/App.jsx:31 | joining the pieces of a split with the separator gives the original text back |
| Strings.SplitJoin | src/App.jsx:31 | splitting a join of separator-free pieces gives the pieces back |
| Strings.BeforeFirst | src/App.jsx:31 | the first piece of a split is a separator-free prefix, followed by the separator when there is one |
| Strings.NatToDecimal | src/home.jsx:13 | a template literal prints a whole number below 10^21 as digits with no leading zero, a single digit exactly below ten |
| Strings.DecimalRoundTrip | src/home.jsx:13 | reading the printed digits gives the number back |
| Router.StripHash | src/index.jsx:6 | one leading `#` is removed, and only when present |
| Router.NormalizePath | src/index.jsx:4-14 | every result starts with `/` and ends with `/` unless it is `/` |
| Router.NormalizeShape | src/index.jsx:4-14 | the result is `/`, then the input without one `#` and one leading `/`, then a closing `/` when that remainder is non-empty and lacks one |
| Router.NormalizeFixedIff | src/index.jsx:4-14 | normalisation leaves a path unchanged exactly when it is already normalised |
| Router.NormalizeKeepsPrefix | src/index.jsx:7-12 | a path starting with `/` is kept at the front of its normal form |
| Router.NormalizeIdempotent | src/index.jsx:4-14 | normalising twice equals normalising once |
| Router.NormalizeRootExamples | src/index.jsx:5-13 | the empty path, `#` and `/` all become `/` |
| Router.NormalizeNameExamples | src/index.jsx:7-12 | `home` becomes `/home/`; `/circles` and `/circles/` both become `/circles/` |
| Router.NormalizeHashExamples | src/index.jsx:6-12 | `#/log` becomes `/log/`; `##x` becomes `/#x/` because only one `#` is dropped |
| Router.NormalizeKeepsDoubleSlash | src/index.jsx:7-9 | leading slashes are not collapsed: `//x` becomes `//x/` |
| Router.StripsOneHash | src/index.jsx:6 | a second `#` survives as the first character of the route |
| Router.NormalizeKeepsAbsent | src/index.jsx:4-14 | any character other than `/` that is absent from the input is absent from the route |
| Router.ReadPath | src/index.jsx:17-21 | the path read from the hash is always normalised |
| Router.ReadPathIsNormalize | src/index.jsx:17-21 | reading the hash normalises the fragment after its `#`, an absent hash counting as `#/` |
| Router.ReadPathDoubleStrip | src/index.jsx:17-21 | the fragment `#x` is read as `/x/`, while normalising it directly gives `/#x/` |
| Router.RefillHash | src/index.jsx:31-35 | the effect on `[path]` leaves the path alone, changes only an empty hash, and leaves a non-empty one as it is |
| Router.Mount | src/index.jsx:23-35 | on mount the path is the normalised fragment, and an empty hash is filled in with `#/` |
| Router.Navigate | src/index.jsx:37-44 | `navigate` writes the hash exactly when it differs from `#` plus the normalised target; otherwise it sets the path directly |
| Router.OnHashChange | src/index.jsx:25-29 | the listener re-reads the path from the hash and leaves the hash alone |
| Router.ExternalHashChange | src/index.jsx:25-35 | after a hash edit the path is the normalised fragment; a non-empty hash is kept, and an emptied hash is written back as `#` plus the path exactly when the path changed |
| Router.RefillIsStable | src/index.jsx:25-35 | the `hashchange` that the effect's write fires re-reads the same path and changes nothing |
| Router.EmptyHashRefilled | src/index.jsx:25-44 | emptying the fragment away from home leads to `#/` and `/`, after which navigating home writes nothing; at home the hash stays empty and navigating home writes `#/` |
| Router.NavigateSettles | src/index.jsx:37-44 | once the event is handled, the path is the normalised target and the hash is `#` plus it |
| Router.NavigateTwiceNoWrite | src/index.jsx:37-44 | navigating again to the same target writes nothing and changes nothing |
| Router.NavigateSeesOnlyNormalized | src/index.jsx:37-44 | targets that normalise alike lead to the same settled state |
| Routes.IndexSwitchIsTable | src/index.jsx:1329-1400 | the `switch` agrees with the route table on every path, and shows NotFound exactly for unlisted paths |
| Routes.IndexRouteOnlyNormalized | src/index.jsx:1295-1329 | paths that normalise alike show the same page |
| Routes.IndexFindRoutes | src/index.jsx:1345-1350 | the four finder paths show Find |
| Routes.IndexFindUnnormalized | src/index.jsx:1295-1350 | `find/therapist` and `#/find/meetings` still show Find |
| Routes.AppCurrentPath | src/App.jsx:31-32 | the dispatched path is normalised, free of `?`, and is the normalised text before the first `?` |
| Routes.AppCurrentPathIgnoresQuery | src/App.jsx:31-32 | a query after a `?`-free path does not change the dispatched path |
| Routes.AppSwitchIsTable | src/App.jsx:66-157 | the `switch` agrees with the route table on every path, and shows NotFound exactly for unlisted paths |
| Routes.AppRouteOfNormalized | src/App.jsx:31-66 | a normalised, query-free path is dispatched as it is |
| Routes.AppLogoutRoute | src/App.jsx:145 | `/logout/` shows the sign-out page |
| Routes.AppCirclesRoutes | src/App.jsx:97-102 | `/circles/` and `/circles/join/` show Circles |
| Routes.AppCirclesSubRoutes | src/App.jsx:97-102 | `/circles/create/` and `/circles/invites/` show Circles |
| Routes.AppLogRoutes | src/App.jsx:104-109 | `/log/` and `/log/milestone/` show the Log screen |
| Routes.AppLogSubRoutes | src/App.jsx:104-109 | `/log/goal/` and `/log/trigger/` show the Log screen |
| Routes.AppVerifyNotFound | src/App.jsx:116-157 | `/verify/` is no longer routed and shows NotFound |
| Routes.AppRouteIgnoresQuery | src/App.jsx:31-32 | for every `?`-free path and every query, the page is that of the path alone |
| Routes.LogGoalIsListed | src/App.jsx:104-108 | `/log/goal/` is normalised, query-free, and dispatched to the Log screen |
| Routes.AppQueryIgnored | src/App.jsx:31-108 | `/log/goal/` followed by any query shows the Log screen |
| Routes.SelectLogView | src/Log.jsx:11-23 | each sub-view is chosen exactly when the normalised path is its route; anything else is the daily view |
| Routes.LogViewExamples | src/Log.jsx:11-23 | three spellings of the goal route show the goal form; `/log/` and unknown paths show the daily log |
| Routes.LogViewKeepsQuery | src/Log.jsx:11-23 | `/log/goal/` with a query reaches the Log screen but shows the daily view, because the Log screen keeps the query |
| Routes.GoToDaily | src/Log.jsx:25-27 | after `goToDaily` the router is at `/log/` and the daily view is shown |
| BottomNav.SectionPrefixesExclusive | src/index.jsx:160-183 | no path starts with two of the section links |
| BottomNav.NormalizedActiveIff | src/index.jsx:146-156 | the home tab is active exactly on `/`; a section tab exactly when the normalised path lies below its link |
| BottomNav.NormalizedAtMostOne | src/index.jsx:146-183 | at most one tab is highlighted |
| BottomNav.LiteralNeedsSlash | src/components/BottomNav.jsx:7-14 | without normalisation `/account` does not activate the Account tab, though the normalising version does |
| BottomNav.ActivePropWins | src/components/BottomNav.jsx:7 | the page URL matters only when the `active` prop is empty |
| BottomNav.LiteralAtMostOne | src/components/BottomNav.jsx:9-41 | the literal version also highlights at most one tab |
| Session.UsernameFor | src/index.jsx:1300 | the username is the `@`-free prefix ending at the first `@` or at the end, and `Member` for an empty email |
| Session.UsernameUnique | src/index.jsx:1300 | that prefix is the only one with those properties |
| Session.UsernameExamples | src/index.jsx:1300 | `sam@example.com` gives `sam`, `sam` gives `sam`, the empty email gives `Member`, `@host` gives the empty name |
| Session.SignIn | src/App.jsx:34-42 | signing in authenticates the email's owner, keeps the old email when none is given, and goes home |
| Session.SignOut | src/App.jsx:54-62 | signing out leaves the guest user, unauthenticated, at home |
| Session.RenderApp | src/App.jsx:145-156 | a render shows the routed page; only the `/logout/` page also signs out |
| Session.RenderIndexApp | src/index.jsx:1389-1396 | the same for the shell of `src/index.jsx` |
| Session.Start | src/App.jsx:23-29 | the shell starts signed in as the demo user, on the normalised path of the address, with an empty hash filled in as `#/` |
| Session.StartAtLogout | src/App.jsx:145-146 | opened at `#/logout/`, the first render signs the demo user out and leaves the guest at `/` with hash `#/` |
| Session.StartElsewhereKeepsUser | src/App.jsx:24-29 | opened on any page other than `/logout/`, the first render keeps the demo user signed in and changes nothing |
| Session.LogoutThenHome | src/App.jsx:145-153 | after the sign-out render, the next render shows Home, signed out |
| Forms.SubmitLogin | src/index.jsx:741-756 | a login is accepted exactly when both fields are non-empty; otherwise it shows the fixed message |
| Forms.SubmitSignup | src/index.jsx:847-868 | a sign-up is accepted exactly when all fields are filled and the passwords agree; empty fields are reported before a mismatch |
| Forms.SignupEmptyBeforeMismatch | src/index.jsx:854-862 | an empty field is reported even when the passwords also differ |
| Forms.Deliver | src/index.jsx:751-756 | the callback runs only for an accepted form, which clears the error and signs in |
| Forms.RejectedLoginChangesNothing | src/index.jsx:747-750 | a login with a missing field leaves the shell as it was |
| Forms.ChangePassword | src/index.jsx:983-998 | a change fails exactly when the new password and its confirmation differ; success empties the form |
| Forms.ChangePasswordAcceptsEmpty | src/index.jsx:987-993 | two empty new passwords are accepted, and the old password is never looked at |
| HomeHelpers.Clamp | src/home.jsx:7-9 | the result lies in the range when the range is non-empty, is the input when it is already inside, and is the nearer end otherwise |
| HomeHelpers.ClampIdempotent | src/home.jsx:7-9 | clamping twice equals clamping once |
| HomeHelpers.Pad2 | src/home.jsx:11-14 | `pad2` prints at least two digits that read back as the absolute value of an integer |
| HomeHelpers.SplitSeconds | src/home.jsx:31-40 | each component is in range and the components add back up to the clamped total |
| HomeHelpers.SplitSecondsUnique | src/home.jsx:31-40 | any in-range split that adds up to the total is the one computed |
| HomeHelpers.SplitSecondsNegative | src/home.jsx:32 | a negative total splits into zeros |
| HomeHelpers.SplitTotalRoundTrip | src/home.jsx:31-40 | splitting the total of an in-range split gives it back |
| HomeHelpers.KeyHash | src/home.jsx:55-58 | every step of the hash stays below 2^32 |
| HomeHelpers.ModStep | src/home.jsx:57 | reducing modulo 2^32 before a hash step does not change the step's result modulo 2^32 |
| HomeHelpers.KeyHashIsPolyMod | src/home.jsx:55-58 | reducing after each step equals reducing the polynomial hash once |
| HomeHelpers.DailyIndex | src/home.jsx:52-60 | the index is 0 for an empty list and otherwise the 32-bit polynomial hash modulo the length, which indexes the list |
| HomeHelpers.ModeAt | src/home.jsx:108 | an index inside the mode list gives that mode; any other gives Clock |
| HomeHelpers.CycleCounterMode | src/home.jsx:171-173 | a tap moves to the next mode and wraps after the last one |
| HomeHelpers.CycleReturns | src/home.jsx:74-82 | four taps return to the starting mode after passing through all four modes |
| UpdatesDeck.GoNext | src/home.jsx:258-261 | next moves one card on and stops at the last card |
| UpdatesDeck.GoPrev | src/home.jsx:263-266 | previous moves one card back and stops at the first card |
| UpdatesDeck.Jump | src/home.jsx:268-271 | a jump lands on the requested card, or on the nearer end of the list |
| UpdatesDeck.Reflow | src/home.jsx:360-362 | after a change of length the index is valid, and unchanged if it already was |
| UpdatesDeck.NextPrevInverse | src/home.jsx:258-266 | away from the ends, next and previous undo each other |
| UpdatesDeck.ReflowExample | src/home.jsx:360-362 | on a list shrunk from five cards to two, the last card's index becomes 1 |
| UpdatesDeck.VisibleCards | src/home.jsx:364-368 | up to three consecutive indices from the top card are drawn, none past the last |
| UpdatesDeck.PointerDown | src/home.jsx:273-287 | a non-primary button is ignored; any other press starts a fresh, unlocked gesture at the pointer |
| UpdatesDeck.LockAfter | src/home.jsx:299-306 | an unlocked gesture locks to x or y once either distance passes 8 px, choosing x on a tie, and a lock never changes |
| UpdatesDeck.PointerMove | src/home.jsx:289-321 | only the tracked pointer moves the card; the distances are taken from the press, whose position and pointer stay; the offset follows the pointer unless the gesture is locked vertically |
| UpdatesDeck.MovesMeasureFromPress | src/home.jsx:289-297 | after any run of moves of the pressed pointer, the distances are those of the last move from the unchanged press point, not accumulated |
| UpdatesDeck.PointerUp | src/home.jsx:323-358 | a release ends the gesture and rests the card; past 110 px horizontally it shows the previous (right) or next (left) card |
| UpdatesDeck.StepsKeepValid | src/home.jsx:273-358 | every pointer step keeps the top card inside the list |
| UpdatesDeck.LockNeverReevaluated | src/home.jsx:299-306 | once locked, no later move of the gesture changes the axis |
| UpdatesDeck.VerticalLockFreezesCard | src/home.jsx:309 | under a vertical lock, the card neither moves nor changes for the rest of the moves |
| UpdatesDeck.MovesKeepIndex | src/home.jsx:289-321 | moves never change the top card |
| UpdatesDeck.SwipeLeftGoesNext | src/home.jsx:273-358 | a full left swipe beyond the threshold brings the next card to the top |
| UpdatesDeck.TapKeepsIndex | src/home.jsx:273-358 | a primary press released without a move keeps the top card |
| UpdatesDeck.ReleaseExamples | src/home.jsx:334-357 | on the five-card deck, a 150 px left release shows the second card and a 50 px one keeps the first |
| CardStack.Press | src/CardStack.jsx:10-13 | a press starts a drag at the pointer and keeps the card and the offset |
| CardStack.Move | src/CardStack.jsx:15-18 | while dragging, the offset is the distance from the press; otherwise nothing changes |
| CardStack.Release | src/CardStack.jsx:20-35 | a release rests the card; past 50 px right it shows the previous card, past 50 px left the next, when there is one |
| CardStack.MouseUp | src/CardStack.jsx:64-73 | a mouse release acts only while a drag is on |
| CardStack.TouchEnd | src/CardStack.jsx:47-73 | a touch release acts as a mouse release during a drag, whether or not a drag is on, and always ends at rest; it would swipe where a mouse release does nothing only from a state with no drag on and an offset past 50 px, which the handlers never produce |
| CardStack.StepsKeepValid | src/CardStack.jsx:10-62 | for a fixed list, every step keeps the card inside it |
| CardStack.StepsKeepAtRest | src/CardStack.jsx:20-35 | the card is at rest whenever no drag is on |
| CardStack.MoveNotCumulative | src/CardStack.jsx:15-18 | only the last move counts |
| CardStack.ThresholdIsInclusive | src/CardStack.jsx:22-28 | a release exactly at 50 px in either direction keeps the card |
| CardStack.SwipeLeft | src/CardStack.jsx:10-35 | press, drag left past the threshold, release: the next card unless on the last one |
| CardStack.TouchEndAgreesWhenAtRest | src/CardStack.jsx:6-62 | in every state the handlers reach, a touch release and a mouse release show the same card, and with no drag on a touch release changes nothing |
| CardStack.TouchEndAtRestKeepsCard | src/CardStack.jsx:47-62 | a touch end with no drag keeps the card |
| CardStack.Render | src/CardStack.jsx:75-87 | an empty list shows the fallback; otherwise the current card and a counter from 1 to the total |
| CardStack.SetItemsAsWritten | src/CardStack.jsx:3-4 | a new list of items keeps the index |
| CardStack.SetItemsAsWrittenLeavesRange | src/CardStack.jsx:86-87 | on the third of three cards, a list shrunk to one leaves the index past the end, and the counter reads 3 of 1 |
| CardStack.SetItems | src/home.jsx:360-362 | with re-clamping, the index is always valid, unchanged if it already was, and the last card if it was past the end |
| SignupFlow.Initial | src/Signup.jsx:33-41 | the screen starts on step 1 with no type and empty fields, showing the `error` prop when non-empty |
| SignupFlow.FindType | src/Signup.jsx:44 | `find` returns a listed type whose id is the chosen one, or nothing when no type has that id |
| SignupFlow.ActiveUserLabel | src/Signup.jsx:43-46 | the label of the chosen type, or the prompt when no type matches |
| SignupFlow.LabelOfChosenType | src/Signup.jsx:5-46 | choosing a type shows its own label, since the ids are distinct |
| SignupFlow.SelectType | src/Signup.jsx:105 | a type button sets the chosen type and nothing else |
| SignupFlow.TypeContinue | src/Signup.jsx:48-55 | with no type the screen stays and asks for one; otherwise the error is cleared and step 2 shown |
| SignupFlow.Back | src/Signup.jsx:316 | Back returns to step 1 and keeps everything entered |
| SignupFlow.FieldChange | src/Signup.jsx:80-82 | typing changes the one field and nothing else |
| SignupFlow.Submit | src/Signup.jsx:57-78 | accepted exactly when all fields are filled, a type is chosen and the passwords agree; the failures are reported in that order |
| SignupFlow.StepsKeepReachable | src/Signup.jsx:33-82 | every handler keeps the screen on step 1 or 2, with a listed type if any |
| SignupFlow.ChosenTypeHasLabel | src/Signup.jsx:43-46 | in a reachable state, a chosen type never shows the prompt |
| SignupFlow.BackThenContinue | src/Signup.jsx:48-55 | going back and continuing returns to the same second step |
| SignupFlow.NoStepTwoWithoutType | src/Signup.jsx:48-55 | the second step cannot be reached without choosing a type |
| SignupFlow.Title | src/Signup.jsx:357 | the title is "Who are you?" exactly on step 1, and "Sign Up" otherwise |
| CheckIn.Filter | src/CheckIn.jsx:47-52 | `filter` keeps only values that pass the test and every such value, and is never longer than the input (multiplicity and order through KeptPositions and FilterKeepsOrder) |
| CheckIn.FilterConcat | src/CheckIn.jsx:47-52 | filtering a list in two pieces filters each piece in order |
| CheckIn.KeptPositions | src/CheckIn.jsx:47-52 | the kept positions are strictly increasing, inside the list, and are exactly the positions whose element passes the test |
| CheckIn.KeptPositionsCount | src/CheckIn.jsx:47-52 | there is one position per kept element |
| CheckIn.KeptPositionsStep | src/CheckIn.jsx:47-52 | if the positions kept from the tail of a list pick out the tail's filter, the positions kept from the whole list pick out its filter |
| CheckIn.FilterKeepsOrder | src/CheckIn.jsx:47-52 | the kept elements are exactly the elements at those positions, so the original order is kept |
| CheckIn.FilteredLocations | src/CheckIn.jsx:44-53 | a blank query shows every place; otherwise exactly the places matching the lowercased, untrimmed query, in order |
| CheckIn.ToLowerKeepsBlankness | src/CheckIn.jsx:45-46 | lowercasing is idempotent and does not change blankness |
| CheckIn.FilterIgnoresCase | src/CheckIn.jsx:44-53 | the search ignores the case of the query |
| CheckIn.QueryNotTrimmed | src/CheckIn.jsx:45-51 | `center ` with a trailing space misses a place named `Center` |
| CheckIn.RecentPlaces | src/CheckIn.jsx:136-139 | "Recent places" clears the search and keeps the selection |
| CheckIn.RecentPlacesShowsAll | src/CheckIn.jsx:136-139 | afterwards every place is shown |
| CheckIn.Select | src/CheckIn.jsx:160 | a Select button selects its place and keeps the search |
| CheckIn.ButtonLabel | src/CheckIn.jsx:162-164 | the button reads "Selected" exactly for the place with the selected id, "Select" otherwise |
| CheckIn.SelectMarksOnlyIt | src/CheckIn.jsx:160-173 | after selecting a built-in place, exactly that place is marked and the confirmation card shows |
| CheckIn.NothingSelectedAtStart | src/CheckIn.jsx:40 | at first no place is marked and no card shows |
| Cookies.Substring | src/pages/Login.jsx:10-11 | `substring` never yields more than the string, and with ordered ends inside it is the slice between them |
| Cookies.SubstringClampsAndSwaps | src/pages/Login.jsx:10-11 | the order of the two ends does not matter, and an end outside the string acts as the nearer end of it |
| Cookies.SubstringTestIsPrefix | src/pages/Login.jsx:10 | the source's substring comparison is exactly "the entry starts with `name=`" |
| Cookies.FirstNaming | src/pages/Login.jsx:8-14 | the scan stops at the first entry that names the cookie, and no earlier entry does |
| Cookies.DecodeAfter | src/pages/Login.jsx:11 | the value is everything after `name=`, decoded; a decode failure escapes |
| Cookies.CookieOf | src/pages/Login.jsx:4-17 | an empty cookie string gives nothing; otherwise nothing exactly when no trimmed entry starts with `name=` |
| Cookies.DecidedAt | src/pages/Login.jsx:8-13 | the first naming entry decides the result |
| Cookies.GetCookie | src/pages/Login.jsx:4-17 | the loop as written computes that meaning |
| Cookies.LongerNameDoesNotMatch | src/pages/Login.jsx:10 | `csrftokenX=…` does not name `csrftoken` |
| Cookies.SingleEntry | src/pages/Signup.jsx:9-11 | one entry `name=value` yields the whole value decoded, further `=` signs included |

## Left out

- The Leaflet map and every piece of markup, styling and CSS are not part of this model. They only present data.
- Timers are not modelled: the 1-second clock tick, the 180 ms swipe delay, the 220 ms spring-back and the 1.5 s password-modal close. The swipe delay applies the index change at once, and `isAnimating` is dropped.
- Rotation, opacity, vertical damping and the progress percentage are floating-point visuals and are left out. Only the integer horizontal offset of a drag is kept.
- Date handling is not modelled (`startOfLocalDay`, `daysBetweenLocal`, `secondsUntilNextLocalMidnight`, `resolveStartDate`). The date key `dailyIndex` builds is taken as given UTF-16 code units.
- HomeHelpers.SplitSeconds takes whole seconds; the `Math.floor` of a fractional input is not modelled.
- HomeHelpers.Pad2 takes an integer, so the `Math.floor` of a fractional argument is not modelled; every caller passes a part of `splitSeconds`, which is whole.
- Strings.NatToDecimal prints every whole number as digits, while a JavaScript template literal switches to exponent form from 10^21 on; the callers stay far below that.
- React context and hooks are not modelled as such. The router's `hashchange` listener and its effect on `[path]` are explicit steps. The `sos-open` event, the SOS overlay and Inertia's `usePage` are left out.
- The `axios` calls of `src/pages/UserAccount.jsx` and the other context screens are not part of this model.
- `./navigation`, which `src/App.jsx` and `src/Log.jsx` import `normalizePath` from, is not part of this model. It is taken to be the `normalizePath` of `src/index.jsx`.
- `decodeURIComponent` is a parameter of the cookie reader. A `None` result stands for the `URIError` it throws.
- Strings.ToLower lowers ASCII letters only; the full Unicode case mapping of `toLowerCase` is not modelled.
- Router.Navigate treats the hash as the text written to it. Percent-encoding by the browser is not modelled.
- Forms.Deliver does not model the presence check on the `onLogin`/`onSignup` callback; the shell always passes one. It also writes the empty text for the `null` error.
- Session.RenderApp, Session.RenderIndexApp and Session.LogoutThenHome take the sign-out on the `/logout/` route as one step followed by a Home render. The source calls `handleLogout` from the render body (src/App.jsx:145-146, src/index.jsx:1389-1390), so each pass updates the component's own state and is rendered again while the path is still `/logout/`, until React gives up on too many re-renders. That render loop is not modelled; the evidently intended outcome is.
- SignupFlow.Initial takes the empty text for an absent `error` prop.
- SignupFlow.Submit returns the request rather than calling `onSignup`, and does not model an absent callback.

## Findings

| source | as written | input that shows it | evidently intended | confidence | as-written member | corrected member |
|---|---|---|---|---|---|---|
| src/CardStack.jsx:4-87 | the current index is kept when the `items` prop changes, so it can point past the end of a shorter list | three items, on the third card, then a list of one item: `items[2]` is undefined and the counter reads "3 of 1" | re-clamp the index into the new list, as the home screen's deck does at src/home.jsx:360-362 | medium, not executed | CardStack.SetItemsAsWrittenLeavesRange | CardStack.SetItems |

=== FILE: bottom_nav.dfy ===
/** The bottom navigation bar's "is this tab active" test, in its two
    versions: the one in src/index.jsx normalises both paths, the one in
    src/components/BottomNav.jsx compares them as written. */
module BottomNav {
  import opened Strings
  import opened Router

  /** The four link tabs of the bar (the SOS button is not a link). */
  datatype Tab = HomeTab | AccountTab | RateTab | VerifyTab

  function Href(t: Tab): string {
    match t
    case HomeTab => "/"
    case AccountTab => "/account/"
    case RateTab => "/rate/"
    case VerifyTab => "/verify/"
  }

  /** `active || url`: the `active` prop when it is non-empty, else the page URL. */
  function CurrentOf(active: string, url: string): string {
    if active != "" then active else url
  }

  /** src/index.jsx: the home target is active only on `/` itself; any other
      target is active on every path below it. Both sides are normalised. */
  predicate IsActiveNormalized(active: string, url: string, href: string) {
    var current := NormalizePath(CurrentOf(active, url));
    var target := NormalizePath(href);
    if target == "/" then current == "/" else StartsWith(current, target)
  }

  /** src/components/BottomNav.jsx: the same rule on the paths as written. */
  predicate IsActiveLiteral(active: string, url: string, href: string) {
    var current := CurrentOf(active, url);
    if href == "/" then current == "/" else StartsWith(current, href)
  }

  /** The three section tabs differ at their second character, so no path
      starts with two of them. */
  lemma SectionPrefixesExclusive(c: string, s: Tab, t: Tab)
    requires s != HomeTab && t != HomeTab && s != t
    ensures !(StartsWith(c, Href(s)) && StartsWith(c, Href(t)))
  {
    assert |Href(s)| > 1 && |Href(t)| > 1 && Href(s)[1] != Href(t)[1];
    assert StartsWith(c, Href(s)) ==> c[1] == c[..|Href(s)|][1] == Href(s)[1];
    assert StartsWith(c, Href(t)) ==> c[1] == c[..|Href(t)|][1] == Href(t)[1];
  }

  /** src/index.jsx highlights the home tab exactly on `/`, and a section
      tab exactly when the normalised path lies below its link. */
  lemma NormalizedActiveIff(active: string, url: string, t: Tab)
    ensures t == HomeTab ==>
      (IsActiveNormalized(active, url, Href(t)) <==> NormalizePath(CurrentOf(active, url)) == "/")
    ensures t != HomeTab ==>
      (IsActiveNormalized(active, url, Href(t)) <==> StartsWith(NormalizePath(CurrentOf(active, url)), Href(t)))
  {
    NormalizeFixedIff(Href(t));
  }

  /** src/index.jsx highlights at most one tab. */
  lemma NormalizedAtMostOne(active: string, url: string, s: Tab, t: Tab)
    requires s != t
    ensures !(IsActiveNormalized(active, url, Href(s)) && IsActiveNormalized(active, url, Href(t)))
  {
    NormalizedActiveIff(active, url, s);
    NormalizedActiveIff(active, url, t);
    if s != HomeTab && t != HomeTab {
      SectionPrefixesExclusive(NormalizePath(CurrentOf(active, url)), s, t);
    }
  }

  /** Without normalisation a path missing its closing slash does not
      activate its tab, while src/index.jsx would activate it. */
  lemma LiteralNeedsSlash()
    ensures !IsActiveLiteral("/account", "/", "/account/")
    ensures IsActiveNormalized("/account", "/", "/account/")
  {
    NormalizeLeading("/account");
    NormalizeFixedIff("/account/");
    assert "/account" + "/" == "/account/";
    assert |"/account"| < |"/account/"|;
  }

  /** In both versions the page URL is consulted only when `active` is empty. */
  lemma ActivePropWins(active: string, url: string, url': string, href: string)
    requires active != ""
    ensures IsActiveLiteral(active, url, href) == IsActiveLiteral(active, url', href)
    ensures IsActiveNormalized(active, url, href) == IsActiveNormalized(active, url', href)
  {
  }

  /** The literal version also highlights at most one tab. */
  lemma LiteralAtMostOne(active: string, url: string, s: Tab, t: Tab)
    requires s != t
    ensures !(IsActiveLiteral(active, url, Href(s)) && IsActiveLiteral(active, url, Href(t)))
  {
    if s != HomeTab && t != HomeTab {
      SectionPrefixesExclusive(CurrentOf(active, url), s, t);
    }
  }
}

=== FILE: card_stack.dfy ===
/** The generic swipeable card stack (src/CardStack.jsx): a press starts a
    drag, moves track the horizontal distance from the press, and the
    release swipes to the neighbouring card once the distance passes 50 px.
    Mouse and touch share the same rules; the mouse move and release
    listeners are attached to the window only while a drag is on. */
module CardStack {
  import opened HomeHelpers

  /** A release farther than this many pixels from the press swipes. */
  const Threshold: int := 50

  /** The stack's state: the number of items it is given, the index of the
      card shown, where the drag started, how far it has moved, and whether a
      drag is on. */
  datatype Stack = Stack(count: nat, index: int, startX: int, currentX: int, isDragging: bool)

  function Initial(count: nat): Stack {
    Stack(count, 0, 0, 0, false)
  }

  /** The card shown is one of the items, or the first slot of an empty list. */
  predicate Valid(s: Stack) {
    0 <= s.index && (s.index < s.count || s.index == 0)
  }

  /** The card is at rest whenever no drag is on. */
  predicate AtRest(s: Stack) {
    !s.isDragging ==> s.currentX == 0
  }

  /** `handleMouseDown` and `handleTouchStart`: a drag starts at the pointer.
      The offset from the previous drag is not reset here. */
  function Press(s: Stack, clientX: int): (r: Stack)
    ensures r.isDragging && r.startX == clientX
    ensures r.index == s.index && r.currentX == s.currentX && r.count == s.count
  {
    s.(isDragging := true, startX := clientX)
  }

  /** `handleMouseMove` and `handleTouchMove`: while dragging, the offset is
      the pointer's distance from the press; otherwise nothing happens. */
  function Move(s: Stack, clientX: int): (r: Stack)
    ensures !s.isDragging ==> r == s
    ensures s.isDragging ==> r == s.(currentX := clientX - s.startX)
  {
    if !s.isDragging then s else s.(currentX := clientX - s.startX)
  }

  /** `handleMouseUp` and `handleTouchEnd`: the drag ends and the card
      returns to rest. Past the threshold to the right the previous card is
      shown, if there is one; past it to the left the next card, if there
      is one. */
  function Release(s: Stack): (r: Stack)
    ensures !r.isDragging && r.currentX == 0
    ensures r.count == s.count && r.startX == s.startX
    ensures s.currentX > Threshold && s.index > 0 ==> r.index == s.index - 1
    ensures s.currentX < -Threshold && s.index < s.count - 1 ==> r.index == s.index + 1
    ensures Abs(s.currentX) <= Threshold ==> r.index == s.index
    ensures s.currentX > Threshold && s.index <= 0 ==> r.index == s.index
    ensures s.currentX < -Threshold && s.index >= s.count - 1 ==> r.index == s.index
  {
    var index :=
      if s.currentX > Threshold then (if s.index > 0 then s.index - 1 else s.index)
      else if s.currentX < -Threshold then (if s.index < s.count - 1 then s.index + 1 else s.index)
      else s.index;
    s.(isDragging := false, index := index, currentX := 0)
  }

  /** A mouse release reaches the stack only while a drag is on, because the
      window listener exists only then. */
  function MouseUp(s: Stack): (r: Stack)
    ensures !s.isDragging ==> r == s
    ensures s.isDragging ==> r == Release(s)
  {
    if s.isDragging then Release(s) else s
  }

  /** A touch release is bound to the stack itself, so it always runs: it
      acts as a mouse release would during a drag, whether or not a drag is
      on. Only from a state with no drag on and an offset past the
      threshold, which the handlers never produce, would it swipe where a
      mouse release does nothing (`TouchEndAgreesWhenAtRest`). */
  function TouchEnd(s: Stack): (r: Stack)
    ensures r == MouseUp(s.(isDragging := true))
    ensures !r.isDragging && r.currentX == 0 && r.count == s.count
    ensures !s.isDragging && s.currentX > Threshold && s.index > 0 ==>
      r.index == s.index - 1 && MouseUp(s) == s
  {
    Release(s)
  }

  /** For a fixed list every step keeps the shown card inside it. */
  lemma StepsKeepValid(s: Stack, x: int)
    requires Valid(s)
    ensures Valid(Press(s, x)) && Valid(Move(s, x)) && Valid(Release(s)) && Valid(MouseUp(s))
  {
  }

  /** The card rests whenever no drag is on, from the start onwards. */
  lemma StepsKeepAtRest(s: Stack, x: int)
    requires AtRest(s)
    ensures AtRest(Initial(s.count))
    ensures AtRest(Press(s, x)) && AtRest(Move(s, x)) && AtRest(Release(s)) && AtRest(MouseUp(s))
  {
  }

  /** Moves are not cumulative: only the last position counts. */
  lemma MoveNotCumulative(s: Stack, a: int, b: int)
    ensures Move(Move(s, a), b) == Move(s, b)
  {
  }

  /** A release exactly at the threshold, in either direction, keeps the card. */
  lemma ThresholdIsInclusive(s: Stack)
    ensures Release(s.(currentX := Threshold)).index == s.index
    ensures Release(s.(currentX := -Threshold)).index == s.index
  {
  }

  /** A whole swipe: press, drag more than the threshold to the left, release.
      The next card is shown unless the last one already was. */
  lemma SwipeLeft(s: Stack, x: int, dist: int)
    requires dist > Threshold
    ensures Release(Move(Press(s, x), x - dist)).index ==
      if s.index < s.count - 1 then s.index + 1 else s.index
  {
  }

  /** In every state the handlers reach the two releases agree: they show
      the same card, and with no drag on a touch release changes nothing. */
  lemma TouchEndAgreesWhenAtRest(s: Stack)
    requires AtRest(s)
    ensures TouchEnd(s).index == MouseUp(s).index
    ensures !s.isDragging ==> TouchEnd(s) == MouseUp(s) == s
  {
  }

  /** A tap, or a touch end with no drag, shows the same card when the card
      is at rest. */
  lemma TouchEndAtRestKeepsCard(s: Stack)
    requires AtRest(s) && !s.isDragging
    ensures TouchEnd(s).index == s.index
  {
  }

  // ------------------------------------------------------------------- render

  /** What the stack shows: the fallback message (with the caller's empty
      action, if one is given) for an empty list, otherwise the current card
      and its counter `{position} of {total}`. */
  datatype View =
    | Fallback(message: string, showsAction: bool)
    | Card(item: int, position: int, total: nat)

  const EmptyMessage := "No circles to explore."

  function Render(s: Stack, hasEmptyAction: bool): (v: View)
    ensures v.Fallback? <==> s.count == 0
    ensures v.Fallback? ==> v == Fallback(EmptyMessage, hasEmptyAction)
    ensures v.Card? ==> v.item == s.index && v.position == s.index + 1 && v.total == s.count
    ensures v.Card? && Valid(s) ==> 1 <= v.position <= v.total && v.item < s.count
  {
    if s.count == 0 then Fallback(EmptyMessage, hasEmptyAction)
    else Card(s.index, s.index + 1, s.count)
  }

  // ----------------------------------------------------- a new list of items

  /** The stack given a new list, as the source has it: the index is kept. */
  function SetItemsAsWritten(s: Stack, count: nat): (r: Stack)
    ensures r.count == count && r.index == s.index
  {
    s.(count := count)
  }

  /** Shrinking the list under the last of three cards leaves the index past
      the end, so the card shown is not an item and the counter reads
      "3 of 1". */
  lemma SetItemsAsWrittenLeavesRange()
    ensures Valid(Stack(3, 2, 0, 0, false))
    ensures !Valid(SetItemsAsWritten(Stack(3, 2, 0, 0, false), 1))
    ensures Render(SetItemsAsWritten(Stack(3, 2, 0, 0, false), 1), false) == Card(2, 3, 1)
  {
  }

  /** The stack given a new list with the index clamped into it, as the home
      screen's deck does on a change of length. */
  function SetItems(s: Stack, count: nat): (r: Stack)
    ensures Valid(r) && r.count == count
    ensures Valid(s.(count := count)) ==> r.index == s.index
    ensures count > 0 && s.index >= count ==> r.index == count - 1
  {
    s.(count := count, index := Clamp(s.index, 0, count - 1))
  }
}

=== FILE: check_in.dfy ===
/** The check-in screen (src/CheckIn.jsx): a search box filters the list of
    nearby places, one place can be selected, and the confirmation card
    appears once one is. */
module CheckIn {
  import opened Strings
  import opened Optional

  /** A place one can check in at. `kind` is the source's `type`. */
  datatype Location = Location(id: string, name: string, kind: string, address: string, distance: string)

  /** The built-in list of places, in display order. */
  const MockLocations: seq<Location> := [
    Location("1", "Harbor Recovery Center", "Treatment Center", "123 Ocean View Rd", "0.3 mi"),
    Location("2", "Sanctuary Sober Living", "Sober Living House", "45 Maple Street", "0.7 mi"),
    Location("3", "Downtown AA \U{2013} Noon Meeting", "AA Meeting", "Community Hall, 2nd Floor", "1.1 mi"),
    Location("4", "Evening NA \U{2013} Hope Group", "NA Meeting", "Faith Center, Room B", "1.6 mi")
  ]

  /** A place matches a lowercased query when its lowercased name, type or
      address contains the query. */
  predicate Matches(loc: Location, q: string) {
    Includes(ToLower(loc.name), q) || Includes(ToLower(loc.kind), q) || Includes(ToLower(loc.address), q)
  }

  /** `Array.prototype.filter`: the elements that pass the test, in their
      original order. */
  function Filter<T(!new)>(xs: seq<T>, f: T -> bool): (r: seq<T>)
    ensures |r| <= |xs|
    ensures forall x :: x in r <==> x in xs && f(x)
  {
    if xs == [] then []
    else (if f(xs[0]) then [xs[0]] else []) + Filter(xs[1..], f)
  }

  /** Filtering a list in two pieces filters each piece and keeps the pieces
      in order. */
  lemma {:induction false} FilterConcat<T(!new)>(a: seq<T>, b: seq<T>, f: T -> bool)
    ensures Filter(a + b, f) == Filter(a, f) + Filter(b, f)
  {
    if a != [] {
      assert (a + b)[0] == a[0];
      assert (a + b)[1..] == a[1..] + b;
      FilterConcat(a[1..], b, f);
    } else {
      assert a + b == b;
    }
  }

  predicate StrictlyIncreasing(ix: seq<nat>) {
    forall k, l :: 0 <= k < l < |ix| ==> ix[k] < ix[l]
  }

  /** Every position one further on. */
  function Shift(ix: seq<nat>): (r: seq<nat>)
    ensures |r| == |ix| && forall k :: 0 <= k < |ix| ==> r[k] == ix[k] + 1
  {
    seq(|ix|, k requires 0 <= k < |ix| => ix[k] + 1)
  }

  lemma ShiftIncreasing(ix: seq<nat>)
    requires StrictlyIncreasing(ix)
    ensures StrictlyIncreasing(Shift(ix)) && StrictlyIncreasing([0] + Shift(ix))
  {
    var r := [0] + Shift(ix);
    forall k, l | 0 <= k < l < |r|
      ensures r[k] < r[l]
    {
      if k > 0 {
        assert r[k] == ix[k - 1] + 1 && r[l] == ix[l - 1] + 1;
      }
    }
  }

  /** Where each kept element sits in the original list: positions inside
      the list, strictly increasing. */
  function KeptPositions<T>(xs: seq<T>, f: T -> bool): (ix: seq<nat>)
    ensures StrictlyIncreasing(ix)
    ensures forall k :: 0 <= k < |ix| ==> ix[k] < |xs|
    ensures forall k :: 0 <= k < |xs| ==> (f(xs[k]) <==> k in ix)
  {
    if xs == [] then []
    else
      var inner := KeptPositions(xs[1..], f);
      ShiftIncreasing(inner);
      var ix := (if f(xs[0]) then [0] else []) + Shift(inner);
      assert forall k :: 0 < k < |xs| ==> (k in Shift(inner) <==> k - 1 in inner);
      assert forall k :: 0 < k < |xs| ==> xs[k] == xs[1..][k - 1];
      ix
  }

  /** One position per kept element. */
  lemma {:induction false} KeptPositionsCount<T(!new)>(xs: seq<T>, f: T -> bool)
    ensures |KeptPositions(xs, f)| == |Filter(xs, f)|
  {
    if xs != [] {
      KeptPositionsCount(xs[1..], f);
    }
  }

  /** The inductive step: if the positions kept from the tail pick out the
      tail's filter, the positions kept from the whole list pick out its
      filter. */
  lemma KeptPositionsStep<T(!new)>(xs: seq<T>, f: T -> bool)
    requires xs != []
    requires |KeptPositions(xs[1..], f)| == |Filter(xs[1..], f)|
    requires var ix, r := KeptPositions(xs[1..], f), Filter(xs[1..], f);
      forall k :: 0 <= k < |ix| ==> xs[1..][ix[k]] == r[k]
    ensures var ix, r := KeptPositions(xs, f), Filter(xs, f);
      forall k :: 0 <= k < |ix| ==> xs[ix[k]] == r[k]
  {
    var tail := Filter(xs[1..], f);
    var inner := KeptPositions(xs[1..], f);
    var rest := Shift(inner);
    var ix, r := KeptPositions(xs, f), Filter(xs, f);
    if f(xs[0]) {
      assert r == [xs[0]] + tail;
      assert ix == [0] + rest;
      forall k | 0 <= k < |ix|
        ensures xs[ix[k]] == r[k]
      {
        if k > 0 {
          assert ix[k] == inner[k - 1] + 1 && r[k] == tail[k - 1];
        }
      }
    } else {
      assert r == tail && ix == rest;
      forall k | 0 <= k < |ix|
        ensures xs[ix[k]] == r[k]
      {
        assert ix[k] == inner[k] + 1;
      }
    }
  }

  /** The kept elements are the elements at those positions, so the filter
      keeps the original order. */
  lemma {:induction false} FilterKeepsOrder<T(!new)>(xs: seq<T>, f: T -> bool)
    ensures |KeptPositions(xs, f)| == |Filter(xs, f)|
    ensures var ix, r := KeptPositions(xs, f), Filter(xs, f);
      forall k :: 0 <= k < |ix| ==> xs[ix[k]] == r[k]
  {
    KeptPositionsCount(xs, f);
    if xs != [] {
      KeptPositionsCount(xs[1..], f);
      FilterKeepsOrder(xs[1..], f);
      KeptPositionsStep(xs, f);
    }
  }

  /** The places that match a lowercased query, in their original order. */
  function Keep(locs: seq<Location>, q: string): seq<Location> {
    Filter(locs, loc => Matches(loc, q))
  }

  /** `filteredLocations`: a blank query (by `trim`) shows every place;
      otherwise the query is lowercased, but not trimmed, and the places
      that match it are shown in their original order. */
  function FilteredLocations(locs: seq<Location>, query: string): (r: seq<Location>)
    ensures Trim(query) == [] ==> r == locs
    ensures Trim(query) != [] ==> forall loc :: loc in r <==> loc in locs && Matches(loc, ToLower(query))
    ensures Trim(query) != [] ==> r == Keep(locs, ToLower(query))
  {
    if Trim(query) == [] then locs else Keep(locs, ToLower(query))
  }

  /** Lowercasing changes no whitespace and lowercasing twice changes
      nothing more. */
  lemma ToLowerKeepsBlankness(s: string)
    ensures ToLower(ToLower(s)) == ToLower(s)
    ensures Trim(ToLower(s)) == [] <==> Trim(s) == []
  {
    assert forall i :: 0 <= i < |s| ==> (IsWhitespace(ToLower(s)[i]) <==> IsWhitespace(s[i]));
  }

  /** The search ignores the case of the query. */
  lemma FilterIgnoresCase(locs: seq<Location>, query: string)
    ensures FilteredLocations(locs, ToLower(query)) == FilteredLocations(locs, query)
  {
    ToLowerKeepsBlankness(query);
  }

  /** The query is not trimmed: a trailing space must itself occur in a
      field, so "center " misses a place called "Center" that "center"
      finds. */
  lemma QueryNotTrimmed()
    ensures FilteredLocations([Location("1", "Center", "", "", "")], "center ") == []
  {
    assert !IsWhitespace("center "[0]);
    var loc := Location("1", "Center", "", "", "");
    IncludesNeedsRoom(ToLower("Center"), ToLower("center "));
    IncludesNeedsRoom(ToLower(""), ToLower("center "));
    assert !Matches(loc, ToLower("center "));
  }

  // --------------------------------------------------------------- the screen

  /** The screen's state: the search text and the selected place. */
  datatype Screen = Screen(query: string, selected: Option<Location>)

  const InitialScreen := Screen("", None)

  /** The list the screen shows. */
  function Shown(s: Screen): seq<Location> {
    FilteredLocations(MockLocations, s.query)
  }

  /** The "Recent places" button clears the search. */
  function RecentPlaces(s: Screen): (r: Screen)
    ensures r.query == "" && r.selected == s.selected
  {
    s.(query := "")
  }

  /** After "Recent places" every place is shown again. */
  lemma RecentPlacesShowsAll(s: Screen)
    ensures Shown(RecentPlaces(s)) == MockLocations
  {
    assert Trim("") == [];
  }

  /** A place's Select button selects that place. */
  function Select(s: Screen, loc: Location): (r: Screen)
    ensures r.selected == Some(loc) && r.query == s.query
  {
    s.(selected := Some(loc))
  }

  /** The button reads "Selected" for the place whose id is the selected
      one's, "Select" otherwise. */
  function ButtonLabel(s: Screen, loc: Location): (l: string)
    ensures l == "Selected" <==> s.selected.Some? && s.selected.value.id == loc.id
    ensures l != "Selected" ==> l == "Select"
  {
    if s.selected.Some? && s.selected.value.id == loc.id then "Selected" else "Select"
  }

  /** The confirmation card is shown exactly when a place is selected. */
  predicate ShowsConfirm(s: Screen) {
    s.selected.Some?
  }

  /** The built-in places have distinct ids, so after selecting one of them
      exactly that one is marked, and the confirmation card shows. */
  lemma SelectMarksOnlyIt(s: Screen, loc: Location, other: Location)
    requires loc in MockLocations && other in MockLocations
    ensures ButtonLabel(Select(s, loc), other) == "Selected" <==> other == loc
    ensures ShowsConfirm(Select(s, loc))
  {
  }

  /** Before anything is selected no place is marked and no card shows. */
  lemma NothingSelectedAtStart(loc: Location)
    ensures ButtonLabel(InitialScreen, loc) == "Select"
    ensures !ShowsConfirm(InitialScreen)
  {
  }
}

=== FILE: cookies.dfy ===
/** `getCookie(name)`, the cookie-string reader that src/pages/Login.jsx and
    src/pages/Signup.jsx both define, word for word, to fetch the CSRF
    token. The cookie string is a parameter, and so is the URI decoding
    (`decodeURIComponent`), whose failure (`URIError`) escapes the reader. */
module Cookies {
  import opened Strings
  import opened Optional

  /** What `getCookie` does: return `null`, return a value, or throw the
      decoder's error. */
  datatype CookieResult = Missing | Found(value: string) | DecodeFails

  /** `s.substring(start, end)`: both ends are clamped into the string and
      swapped if they come in the wrong order. With the ends in order and
      inside the string it is the slice between them. */
  function Substring(s: string, start: int, end: int): (r: string)
    ensures |r| <= |s|
    ensures 0 <= start <= end <= |s| ==> r == s[start..end]
  {
    var a := if start < 0 then 0 else if start > |s| then |s| else start;
    var b := if end < 0 then 0 else if end > |s| then |s| else end;
    if a <= b then s[a..b] else s[b..a]
  }

  /** The order of the two ends does not matter, and an end outside the
      string acts as the nearer end of it. */
  lemma SubstringClampsAndSwaps(s: string, start: int, end: int)
    ensures Substring(s, start, end) == Substring(s, end, start)
    ensures start < 0 ==> Substring(s, start, end) == Substring(s, 0, end)
    ensures end > |s| ==> Substring(s, start, end) == Substring(s, start, |s|)
  {
  }

  /** The source's test `cookie.substring(0, name.length + 1) === name + '='`
      is exactly "the entry starts with `name=`": an entry shorter than
      that has a shorter substring. */
  lemma SubstringTestIsPrefix(entry: string, name: string)
    ensures Substring(entry, 0, |name| + 1) == name + "=" <==> StartsWith(entry, name + "=")
  {
  }

  /** The entries of a cookie string: the `;`-separated pieces, trimmed. */
  function Entries(cookie: string): seq<string> {
    var parts := Split(cookie, ';');
    seq(|parts|, j requires 0 <= j < |parts| => Trim(parts[j]))
  }

  /** A trimmed entry names the cookie when it starts with the name and an
      equals sign. */
  predicate Names(entry: string, name: string) {
    StartsWith(entry, name + "=")
  }

  /** The first entry from `i` on that names the cookie, if any. */
  function FirstNaming(entries: seq<string>, name: string, i: nat): (r: Option<nat>)
    requires i <= |entries|
    ensures r.Some? ==> i <= r.value < |entries| && Names(entries[r.value], name)
    ensures r.Some? ==> forall j :: i <= j < r.value ==> !Names(entries[j], name)
    ensures r.None? ==> forall j :: i <= j < |entries| ==> !Names(entries[j], name)
    decreases |entries| - i
  {
    if i == |entries| then None
    else if Names(entries[i], name) then Some(i)
    else FirstNaming(entries, name, i + 1)
  }

  /** What an entry naming the cookie holds after `name=`, decoded. */
  function DecodeAfter(entry: string, name: string, decode: string -> Option<string>): (r: CookieResult)
    requires Names(entry, name)
    ensures r != Missing
    ensures entry == name + "=" + entry[|name| + 1..]
    ensures r == (match decode(entry[|name| + 1..])
                  case Some(v) => Found(v)
                  case None => DecodeFails)
  {
    assert entry == entry[..|name| + 1] + entry[|name| + 1..];
    match decode(entry[|name| + 1..])
    case Some(v) => Found(v)
    case None => DecodeFails
  }

  /** The reader's meaning: nothing for an empty cookie string or when no
      `;`-separated entry, trimmed, starts with `name=`; otherwise the
      first such entry's remainder after `name=`, decoded. */
  function CookieOf(cookie: string, name: string, decode: string -> Option<string>): (r: CookieResult)
    ensures cookie == "" ==> r == Missing
    ensures cookie != "" ==> var entries := Entries(cookie);
      (r == Missing <==> forall j :: 0 <= j < |entries| ==> !Names(entries[j], name))
  {
    if cookie == "" then Missing
    else
      var entries := Entries(cookie);
      var k := FirstNaming(entries, name, 0);
      if k.None? then Missing
      else
        var r := DecodeAfter(entries[k.value], name, decode);
        assert r != Missing;
        r
  }

  /** Once the scan from the start reaches a naming entry, that entry
      decides the result. */
  lemma DecidedAt(cookie: string, name: string, decode: string -> Option<string>, i: nat)
    requires cookie != "" && i < |Entries(cookie)| && Names(Entries(cookie)[i], name)
    requires FirstNaming(Entries(cookie), name, 0) == FirstNaming(Entries(cookie), name, i)
    ensures CookieOf(cookie, name, decode) == DecodeAfter(Entries(cookie)[i], name, decode)
  {
  }

  /** `getCookie(name)` as the source writes it: split on `;`, trim each
      entry, and stop at the first whose leading `name.length + 1`
      characters are `name=`. */
  method GetCookie(cookie: string, name: string, decode: string -> Option<string>) returns (r: CookieResult)
    ensures r == CookieOf(cookie, name, decode)
  {
    r := Missing;
    if cookie == "" {
      return;
    }
    var entries := Entries(cookie);
    var i := 0;
    while i < |entries|
      invariant 0 <= i <= |entries|
      invariant FirstNaming(entries, name, 0) == FirstNaming(entries, name, i)
    {
      var entry := entries[i];
      SubstringTestIsPrefix(entry, name);
      if Substring(entry, 0, |name| + 1) == name + "=" {
        var raw := Substring(entry, |name| + 1, |entry|);
        assert raw == entry[|name| + 1..];
        DecidedAt(cookie, name, decode, i);
        var decoded := decode(raw);
        r := if decoded.Some? then Found(decoded.value) else DecodeFails;
        assert r == DecodeAfter(entry, name, decode);
        return;
      }
      i := i + 1;
    }
  }

  /** A longer cookie name that merely begins with the wanted name is not a
      match: `csrftokenX=…` does not name `csrftoken`. */
  lemma LongerNameDoesNotMatch(value: string)
    ensures !Names(Trim("csrftokenX=" + value), "csrftoken")
  {
    var e := "csrftokenX=" + value;
    assert e[0] == 'c' && e[9] == 'X' && e[10] == '=';
    TrimFromNonBlankStart(e);
    assert |Trim(e)| > 10;
    assert Trim(e)[9] == 'X';
    assert ("csrftoken" + "=")[9] == '=';
  }

  /** A cookie string holding one entry `name=value` yields that value,
      decoded, whole: the value runs to the end of the entry, so further
      `=` signs in it are kept. */
  lemma SingleEntry(name: string, value: string, decode: string -> Option<string>)
    requires name != [] && !IsWhitespace(name[0])
    requires value == [] || !IsWhitespace(value[|value| - 1])
    requires ';' !in name && ';' !in value
    ensures CookieOf(name + "=" + value, name, decode) ==
      (match decode(value)
       case Some(v) => Found(v)
       case None => DecodeFails)
  {
    var c := name + "=" + value;
    assert c[0] == name[0];
    assert c[|c| - 1] == if value == [] then '=' else value[|value| - 1];
    assert ';' !in c;
    assert Split(c, ';') == [c];
    TrimKeepsInner(c);
    assert Entries(c) == [c];
    assert c[..|name| + 1] == name + "=";
    assert FirstNaming(Entries(c), name, 0) == Some(0);
    assert c[|name| + 1..] == value;
  }
}

=== FILE: forms.dfy ===
/** The submit checks of the login, sign-up and change-password forms in
    src/index.jsx. A field the form does not hold reads as the empty text,
    as `form.get(...) || ''` makes it. */
module Forms {
  import opened Session

  /** A submit either shows an error message or hands the email on to the
      shell's callback. */
  datatype Submission = Rejected(message: string) | Accepted(email: string)

  /** `Login.handleSubmit`: both fields must be non-empty. */
  function SubmitLogin(email: string, password: string): (r: Submission)
    ensures r.Accepted? <==> email != "" && password != ""
    ensures r.Accepted? ==> r.email == email
    ensures r.Rejected? ==> r.message == "Please enter your email and password."
  {
    if email == "" || password == "" then Rejected("Please enter your email and password.")
    else Accepted(email)
  }

  /** `Signup.handleSubmit`: first all three fields must be filled in, then
      the two passwords must agree. */
  function SubmitSignup(email: string, password: string, confirm: string): (r: Submission)
    ensures r.Accepted? <==> email != "" && password != "" && confirm != "" && password == confirm
    ensures r.Accepted? ==> r.email == email
    ensures email == "" || password == "" || confirm == "" ==> r == Rejected("Please fill out all fields.")
    ensures email != "" && password != "" && confirm != "" && password != confirm ==>
      r == Rejected("Passwords do not match.")
  {
    if email == "" || password == "" || confirm == "" then Rejected("Please fill out all fields.")
    else if password != confirm then Rejected("Passwords do not match.")
    else Accepted(email)
  }

  /** An empty field is reported even when the passwords also disagree. */
  lemma SignupEmptyBeforeMismatch(email: string, password: string)
    requires password != ""
    ensures SubmitSignup(email, password, "") == Rejected("Please fill out all fields.")
    ensures SubmitSignup("", password, password + "x") == Rejected("Please fill out all fields.")
  {
  }

  /** The error a form shows (the empty text standing for none, where the
      source writes `null`), and the shell after the submit. */
  datatype FormResult = FormResult(formError: string, shell: Shell)

  /** Submitting a form wired to the shell: the callback (sign in) runs only
      when the checks pass, and then the form's error is cleared. */
  function Deliver(s: Shell, r: Submission): (f: FormResult)
    ensures r.Rejected? ==> f == FormResult(r.message, s)
    ensures r.Accepted? ==>
      (f.formError == "" && f.shell.authenticated
       && f.shell.user.username == UsernameFor(r.email) && f.shell.nav.path == "/")
  {
    match r
    case Rejected(m) => FormResult(m, s)
    case Accepted(email) => FormResult("", SignIn(s, email))
  }

  /** A login with a missing field leaves the shell exactly as it was. */
  lemma RejectedLoginChangesNothing(s: Shell, email: string, password: string)
    requires email == "" || password == ""
    ensures Deliver(s, SubmitLogin(email, password)).shell == s
  {
  }

  /** The change-password form's three fields. */
  datatype PasswordForm = PasswordForm(oldPassword: string, newPassword: string, confirmPassword: string)

  const EmptyPasswordForm := PasswordForm("", "", "")

  datatype PasswordStatus = Failed(message: string) | Succeeded(message: string)

  /** `handlePasswordChange`: the only check is that the new password and
      its confirmation agree; on success the form is emptied. */
  function ChangePassword(f: PasswordForm): (r: (PasswordForm, PasswordStatus))
    ensures r.1.Failed? <==> f.newPassword != f.confirmPassword
    ensures r.1.Failed? ==> r.1.message == "Passwords do not match" && r.0 == f
    ensures r.1.Succeeded? ==> r.0 == EmptyPasswordForm
  {
    if f.newPassword != f.confirmPassword then (f, Failed("Passwords do not match"))
    else (EmptyPasswordForm, Succeeded("Password updated successfully (demo only)"))
  }

  /** Nothing else is checked: empty passwords that agree are accepted, and
      the old password is never looked at. */
  lemma ChangePasswordAcceptsEmpty(current: string)
    ensures ChangePassword(PasswordForm(current, "", "")).1.Succeeded?
  {
  }
}

=== FILE: home_helpers.dfy ===
/** The integer helpers of the home screen (src/home.jsx): `clamp`, `pad2`,
    `splitSeconds`, the day-seeded message index `dailyIndex`, and the
    sobriety-counter display modes with their cycling. */
module HomeHelpers {
  import opened Strings

  function Max(a: int, b: int): int {
    if a >= b then a else b
  }

  function Min(a: int, b: int): int {
    if a <= b then a else b
  }

  function Abs(n: int): nat {
    if n < 0 then -n else n
  }

  /** `clamp(n, min, max)`, that is `Math.max(min, Math.min(max, n))`: inside
      the range whenever the range is non-empty, `n` itself when it is
      already inside, and the nearer end otherwise. An empty range
      (`max < min`) gives `min`. */
  function Clamp(n: int, lo: int, hi: int): (r: int)
    ensures lo <= hi ==> lo <= r <= hi
    ensures lo <= n <= hi ==> r == n
    ensures n < lo ==> r == lo
    ensures lo <= hi < n ==> r == hi
    ensures hi < lo ==> r == lo
  {
    Max(lo, Min(hi, n))
  }

  /** Clamping twice into the same range changes nothing more. */
  lemma ClampIdempotent(n: int, lo: int, hi: int)
    ensures Clamp(Clamp(n, lo, hi), lo, hi) == Clamp(n, lo, hi)
  {
  }

  /** Reading a zero followed by one digit gives that digit. */
  lemma ZeroPaddedValue(v: nat)
    requires v < 10
    ensures AllDigits(['0', DigitChar(v)])
    ensures DecimalValue(['0', DigitChar(v)]) == v
  {
    var s := ['0', DigitChar(v)];
    assert s[..1] == ['0'];
    assert s[..1][..0] == [];
    assert DecimalValue(s[..1]) == 0;
    assert s[1] as int - '0' as int == v;
  }

  /** `pad2(n)`: the whole part of `|n|` in decimal, with a leading zero
      below ten, so always at least two digits that read back as `|n|`. */
  function Pad2(n: int): (r: string)
    ensures |r| >= 2 && AllDigits(r)
    ensures DecimalValue(r) == Abs(n)
    ensures Abs(n) < 10 ==> r == ['0', DigitChar(Abs(n))]
    ensures Abs(n) >= 10 ==> r == NatToDecimal(Abs(n))
  {
    var v := Abs(n);
    if v < 10 then
      ZeroPaddedValue(v);
      ['0', DigitChar(v)]
    else
      DecimalRoundTrip(v);
      NatToDecimal(v)
  }

  /** A span of time in days, hours, minutes and seconds. */
  datatype Split = Split(days: nat, hours: nat, mins: nat, secs: nat)

  function TotalSeconds(d: Split): nat {
    d.days * 86400 + d.hours * 3600 + d.mins * 60 + d.secs
  }

  predicate InRange(d: Split) {
    d.hours < 24 && d.mins < 60 && d.secs < 60
  }

  /** `splitSeconds(t)`: a negative total counts as zero; otherwise whole
      days, then hours, minutes and seconds of the remainder. */
  function SplitSeconds(t: int): (d: Split)
    ensures InRange(d)
    ensures TotalSeconds(d) == Max(0, t)
  {
    var s := Max(0, t);
    var days := s / 86400;
    var rem1 := s - days * 86400;
    var hours := rem1 / 3600;
    var rem2 := rem1 - hours * 3600;
    var mins := rem2 / 60;
    var secs := rem2 - mins * 60;
    Split(days, hours, mins, secs)
  }

  /** The split is the only one in range with the right total, so it is the
      days-hours-minutes-seconds reading of the total. */
  lemma SplitSecondsUnique(t: int, d: Split)
    requires InRange(d) && TotalSeconds(d) == Max(0, t)
    ensures d == SplitSeconds(t)
  {
    var s := Max(0, t);
    var inDay := d.hours * 3600 + d.mins * 60 + d.secs;
    assert s / 86400 == d.days;
    var inHour := d.mins * 60 + d.secs;
    assert inDay / 3600 == d.hours;
    assert inHour / 60 == d.mins;
  }

  /** A negative total shows as all zeros. */
  lemma SplitSecondsNegative(t: int)
    requires t < 0
    ensures SplitSeconds(t) == Split(0, 0, 0, 0)
  {
    SplitSecondsUnique(t, Split(0, 0, 0, 0));
  }

  /** Splitting the total of an in-range split gives that split back. */
  lemma SplitTotalRoundTrip(d: Split)
    requires InRange(d)
    ensures SplitSeconds(TotalSeconds(d)) == d
  {
    SplitSecondsUnique(TotalSeconds(d), d);
  }

  /** A UTF-16 code unit, as `charCodeAt` returns it. */
  type CodeUnit = c: int | 0 <= c < 0x1_0000

  const TwoTo32: nat := 0x1_0000_0000

  /** The hash `dailyIndex` computes, one code unit at a time:
      `hash = (hash * 31 + code) >>> 0`. The intermediate value stays below
      2^53, so the engine computes it exactly and `>>> 0` reduces it
      modulo 2^32. */
  function KeyHash(key: seq<CodeUnit>): (h: nat)
    ensures h < TwoTo32
  {
    if key == [] then 0
    else (KeyHash(key[..|key| - 1]) * 31 + key[|key| - 1]) % TwoTo32
  }

  /** The same hash without any intermediate reduction. */
  function PolyHash(key: seq<CodeUnit>): nat {
    if key == [] then 0 else PolyHash(key[..|key| - 1]) * 31 + key[|key| - 1]
  }

  /** One step of the hash commutes with reducing modulo 2^32. */
  lemma ModStep(a: nat, c: nat)
    ensures ((a % TwoTo32) * 31 + c) % TwoTo32 == (a * 31 + c) % TwoTo32
  {
    var q := a / TwoTo32;
    assert a * 31 + c == (a % TwoTo32) * 31 + c + (q * 31) * TwoTo32;
  }

  /** Reducing after every step gives the polynomial hash reduced once at
      the end: the 32-bit wrap-around loses nothing else. */
  lemma {:induction false} KeyHashIsPolyMod(key: seq<CodeUnit>)
    ensures KeyHash(key) == PolyHash(key) % TwoTo32
  {
    if key != [] {
      var init := key[..|key| - 1];
      KeyHashIsPolyMod(init);
      ModStep(PolyHash(init), key[|key| - 1]);
    }
  }

  /** `dailyIndex` with its key already rendered: the hash modulo the list
      length, or 0 for an empty list. The result indexes the list whenever
      the list is non-empty. */
  method DailyIndex(key: seq<CodeUnit>, listLength: nat) returns (idx: nat)
    ensures listLength == 0 ==> idx == 0
    ensures listLength > 0 ==> idx < listLength && idx == PolyHash(key) % TwoTo32 % listLength
  {
    var hash: nat := 0;
    var i := 0;
    while i < |key|
      invariant 0 <= i <= |key|
      invariant hash == KeyHash(key[..i])
    {
      assert key[..i + 1][..i] == key[..i];
      hash := (hash * 31 + key[i]) % TwoTo32;
      i := i + 1;
    }
    assert key[..|key|] == key;
    KeyHashIsPolyMod(key);
    idx := if listLength != 0 then hash % listLength else 0;
  }

  /** The sobriety counter's display modes, in the order the list gives them. */
  datatype CounterMode = Days | DaysHours | Clock | NextDay

  const CounterModes: seq<CounterMode> := [Days, DaysHours, Clock, NextDay]

  /** The mode the counter starts in (index 2). */
  const InitialModeIndex: nat := 2

  /** `COUNTER_MODES[i]?.id || "clock"`: the listed mode, or Clock for an
      index outside the list. */
  function ModeAt(i: int): (m: CounterMode)
    ensures 0 <= i < |CounterModes| ==> m == CounterModes[i]
    ensures !(0 <= i < |CounterModes|) ==> m == Clock
  {
    if 0 <= i < |CounterModes| then CounterModes[i] else Clock
  }

  /** `cycleCounterMode`: the next index, wrapping after the last mode. */
  function CycleCounterMode(i: nat): (j: nat)
    ensures j < |CounterModes|
    ensures i + 1 < |CounterModes| ==> j == i + 1
    ensures i + 1 == |CounterModes| ==> j == 0
  {
    (i + 1) % |CounterModes|
  }

  /** Four taps bring the counter back to the mode it showed, after passing
      through every other mode once. */
  lemma CycleReturns(i: nat)
    requires i < |CounterModes|
    ensures CycleCounterMode(CycleCounterMode(CycleCounterMode(CycleCounterMode(i)))) == i
    ensures {ModeAt(i), ModeAt(CycleCounterMode(i)), ModeAt(CycleCounterMode(CycleCounterMode(i))),
             ModeAt(CycleCounterMode(CycleCounterMode(CycleCounterMode(i))))}
            == {Days, DaysHours, Clock, NextDay}
  {
  }
}

=== FILE: optional.dfy ===
/** A value that may be absent: JavaScript's `null` where the source uses it. */
module Optional {
  datatype Option<T> = None | Some(value: T)
}

=== FILE: router.dfy ===
/** The hash router of src/index.jsx: the path-normalisation rule and the
    two-variable machine formed by the browser's `location.hash` and the
    router's `path` state. */
module Router {
  import opened Strings

  /** A normalised route: starts with `/`, and ends with `/` unless it is `/`. */
  predicate IsNormalized(p: string) {
    |p| >= 1 && p[0] == '/' && (p == "/" || EndsWithChar(p, '/'))
  }

  /** Drops one leading `#`, if there is one (`replace(/^#/, '')`). */
  function StripHash(s: string): (r: string)
    ensures |s| > 0 && s[0] == '#' ==> s == "#" + r
    ensures !(|s| > 0 && s[0] == '#') ==> r == s
  {
    if |s| > 0 && s[0] == '#' then s[1..] else s
  }

  /** `normalizePath`: an empty input counts as `/`; one leading `#` is
      dropped; a `/` is put in front if missing and at the end if missing
      (unless the path is just `/`). */
  function NormalizePath(raw: string): (r: string)
    ensures IsNormalized(r)
  {
    var safe := if raw == "" then "/" else raw;
    var next := StripHash(safe);
    var led := if StartsWith(next, "/") then next else "/" + next;
    if |led| > 1 && !EndsWithChar(led, '/') then led + "/" else led
  }

  /** What is left of the input once the `#` and the leading `/` are gone. */
  function Body(raw: string): string {
    var next := StripHash(raw);
    if StartsWith(next, "/") then next[1..] else next
  }

  /** An independent description of the normalised path: `/`, the body,
      and a closing `/` when the body is non-empty and lacks one. */
  lemma NormalizeShape(raw: string)
    ensures var b := Body(raw);
      NormalizePath(raw) == "/" + b + (if b != "" && !EndsWithChar(b, '/') then "/" else "")
  {
    var b := Body(raw);
    if raw == "" {
      assert NormalizePath(raw) == "/" && b == "";
    } else {
      var next := StripHash(raw);
      if StartsWith(next, "/") {
        assert next == "/" + b;
      } else {
        assert b == next;
      }
      var led := "/" + b;
      assert |led| > 1 <==> b != "";
      assert b != "" ==> (EndsWithChar(led, '/') <==> EndsWithChar(b, '/'));
    }
  }

  /** A path is left unchanged by normalisation exactly when it is already
      normalised. */
  lemma NormalizeFixedIff(p: string)
    ensures NormalizePath(p) == p <==> IsNormalized(p)
  {
    if IsNormalized(p) {
      assert StripHash(p) == p;
      assert StartsWith(p, "/");
    }
  }

  /** A path that already starts with `/` is kept as the front of its
      normalised form: at most a closing `/` is added. */
  lemma NormalizeKeepsPrefix(s: string)
    requires |s| > 0 && s[0] == '/'
    ensures |NormalizePath(s)| >= |s| && NormalizePath(s)[..|s|] == s
  {
    assert StripHash(s) == s;
    assert s[..1] == "/";
  }

  /** Normalising twice is the same as normalising once. */
  lemma NormalizeIdempotent(s: string)
    ensures NormalizePath(NormalizePath(s)) == NormalizePath(s)
  {
    NormalizeFixedIff(NormalizePath(s));
  }

  /** The empty path, a lone `#` and the root all normalise to the root. */
  lemma NormalizeRootExamples()
    ensures NormalizePath("") == "/"
    ensures NormalizePath("#") == "/"
    ensures NormalizePath("/") == "/"
  {
  }

  /** A bare name gets both slashes, a name with its leading slash gets the
      closing one, and a normalised path stays as it is. */
  lemma NormalizeNameExamples()
    ensures NormalizePath("home") == "/home/"
    ensures NormalizePath("/circles") == "/circles/"
    ensures NormalizePath("/circles/") == "/circles/"
  {
    NormalizeBare("home");
    assert "/" + "home" + "/" == "/home/";
    NormalizeLeading("/circles");
    assert "/circles" + "/" == "/circles/";
    NormalizeFixedIff("/circles/");
  }

  /** One leading `#` is dropped; a second one stays. */
  lemma NormalizeHashExamples()
    ensures NormalizePath("#/log") == "/log/"
    ensures NormalizePath("##x") == "/#x/"
  {
    NormalizeHashed("/log");
    NormalizeLeading("/log");
    assert "#" + "/log" == "#/log";
    assert "/log" + "/" == "/log/";
    assert "#x"[..1] == "#";
  }

  /** Leading slashes are not collapsed: a path that already starts with
      `/` keeps all of them. */
  lemma NormalizeKeepsDoubleSlash()
    ensures NormalizePath("//x") == "//x/"
  {
    NormalizeLeading("//x");
    assert "//x" + "/" == "//x/";
  }

  /** A bare name gets both slashes. */
  lemma NormalizeBare(s: string)
    requires s != "" && s[0] != '#' && s[0] != '/' && s[|s| - 1] != '/'
    ensures NormalizePath(s) == "/" + s + "/"
  {
    assert s[..1] != "/";
  }

  /** A path with its leading slash gets the closing one. */
  lemma NormalizeLeading(s: string)
    requires |s| > 1 && s[0] == '/' && s[|s| - 1] != '/'
    ensures NormalizePath(s) == s + "/"
  {
    assert s[..1] == "/";
  }

  /** A `#` in front is dropped before the rest of the rule applies. */
  lemma NormalizeHashed(s: string)
    requires s != "" && s[0] != '#'
    ensures NormalizePath("#" + s) == NormalizePath(s)
  {
    assert StripHash("#" + s) == s;
  }

  /** Only one `#` is stripped: a second one becomes part of the route. */
  lemma StripsOneHash(s: string)
    requires !StartsWith(s, "#")
    ensures NormalizePath("#" + s) == NormalizePath(s)
    ensures |NormalizePath("##" + s)| > 1 && NormalizePath("##" + s)[1] == '#'
  {
    assert StripHash("#" + s) == s;
    assert ("#" + s)[0] == '#';
    assert s != "" ==> s[..1] != "#";
    assert StripHash("##" + s) == "#" + s;
    assert ("#" + s)[..1] == "#";
  }

  /** Browser state and router state. `hash` is `window.location.hash` as
      read back (empty when the URL has no fragment); `path` is the
      router's `path` state. */
  datatype Nav = Nav(hash: string, path: string)

  /** `getPath`: an absent hash counts as `#/`, one `#` is dropped, an empty
      remainder counts as `/`, then the result is normalised. */
  function ReadPath(hash: string): (r: string)
    ensures IsNormalized(r)
  {
    var h := if hash == "" then "#/" else hash;
    var raw := StripHash(h);
    NormalizePath(if raw == "" then "/" else raw)
  }

  /** Reading the route from the hash normalises the fragment, that is, the
      hash text without its `#`. Since `normalizePath` drops a `#` of its
      own, a fragment that itself starts with `#` loses that one too. */
  lemma ReadPathIsNormalize(hash: string)
    ensures ReadPath(hash) == NormalizePath(StripHash(hash))
  {
  }

  /** The double strip: the fragment `#x` is read as the route `/x/`, while
      normalising the same fragment directly would give `/#x/`. */
  lemma ReadPathDoubleStrip()
    ensures ReadPath("##x") == "/x/"
    ensures NormalizePath("##x") == "/#x/"
  {
    NormalizeHashExamples();
    assert StripHash("##x") == "#x";
    assert StripHash("#x") == "x";
    assert "x"[..1] == "x";
  }

  /** Setting `location.hash = v` to a path that starts with `/` reads back
      as `#` followed by that path. */
  function HashOf(p: string): string {
    "#" + p
  }

  /** The effect on `[path]`: it runs after the first render and after
      every render whose path changed (`runs`), and then fills an empty
      hash with the path. It never touches the path. */
  function RefillHash(n: Nav, runs: bool): (m: Nav)
    ensures m.path == n.path
    ensures m.hash != "" || n.hash == ""
    ensures n.hash != "" ==> m == n
  {
    if runs && n.hash == "" then Nav(HashOf(n.path), n.path) else n
  }

  /** Mounting the provider: the path is read from the hash, and the
      effect's first run fills an empty hash in with that path. */
  function Mount(hash: string): (n: Nav)
    ensures n.path == NormalizePath(StripHash(hash))
    ensures hash == "" ==> n.hash == "#/"
    ensures hash != "" ==> n.hash == hash
  {
    ReadPathIsNormalize(hash);
    var path := ReadPath(hash);
    RefillHash(Nav(hash, path), true)
  }

  /** The result of `navigate`: the new state and whether it wrote the hash
      (a write is what fires a `hashchange` event). */
  datatype NavStep = NavStep(nav: Nav, wroteHash: bool)

  /** `navigate(target)`: when the hash differs from `#` plus the normalised
      target, write the hash and leave the path to the `hashchange`
      listener; otherwise set the path directly and write nothing. */
  function Navigate(n: Nav, target: string): (s: NavStep)
    ensures s.wroteHash <==> n.hash != "#" + NormalizePath(target)
    ensures s.wroteHash ==> s.nav == Nav("#" + NormalizePath(target), n.path)
    ensures !s.wroteHash ==> s.nav == Nav(n.hash, NormalizePath(target))
  {
    var normalized := NormalizePath(target);
    if n.hash != HashOf(normalized) then NavStep(Nav(HashOf(normalized), n.path), true)
    else NavStep(Nav(n.hash, normalized), false)
  }

  /** The `hashchange` listener: re-read the path from the current hash. */
  function OnHashChange(n: Nav): (m: Nav)
    ensures m.hash == n.hash && m.path == NormalizePath(StripHash(n.hash))
  {
    ReadPathIsNormalize(n.hash);
    Nav(n.hash, ReadPath(n.hash))
  }

  /** The user edits the address bar: the hash changes and the listener
      re-reads the path. When that moves the path, the effect on `[path]`
      runs too, and an empty hash is filled in with the new path (whose own
      `hashchange` leaves everything as it is, see `RefillIsStable`). */
  function ExternalHashChange(n: Nav, newHash: string): (m: Nav)
    ensures IsNormalized(m.path) && m.path == NormalizePath(StripHash(newHash))
    ensures newHash != "" ==> m.hash == newHash
    ensures newHash == "" && m.path != n.path ==> m.hash == "#" + m.path
    ensures newHash == "" && m.path == n.path ==> m.hash == ""
  {
    var heard := OnHashChange(Nav(newHash, n.path));
    RefillHash(heard, heard.path != n.path)
  }

  /** The `hashchange` caused by the effect's write re-reads the same path,
      so nothing further happens. */
  lemma RefillIsStable(n: Nav, newHash: string)
    requires newHash == "" && ExternalHashChange(n, newHash).hash != ""
    ensures OnHashChange(ExternalHashChange(n, newHash)) == ExternalHashChange(n, newHash)
  {
    var m := ExternalHashChange(n, newHash);
    assert StripHash(HashOf(m.path)) == m.path;
    NormalizeFixedIff(m.path);
  }

  /** Emptying the fragment away from the home route brings the router home
      and the effect writes `#/` back, so navigating home afterwards writes
      nothing. Already at home, the fragment stays empty and a later
      navigation home does write `#/`. */
  lemma EmptyHashRefilled(n: Nav)
    ensures n.path != "/" ==> ExternalHashChange(n, "") == Nav("#/", "/")
    ensures n.path != "/" ==> !Navigate(ExternalHashChange(n, ""), "/").wroteHash
    ensures n.path == "/" ==> ExternalHashChange(n, "") == Nav("", "/")
    ensures n.path == "/" ==> Navigate(ExternalHashChange(n, ""), "/").wroteHash
  {
    NormalizeRootExamples();
  }

  /** A navigation step together with the `hashchange` it caused, if any. */
  function Settle(s: NavStep): Nav {
    if s.wroteHash then OnHashChange(s.nav) else s.nav
  }

  /** Once the event (if any) has been handled, the router is at the
      normalised target and the hash shows it. */
  lemma NavigateSettles(n: Nav, target: string)
    ensures Settle(Navigate(n, target)).path == NormalizePath(target)
    ensures Settle(Navigate(n, target)).hash == "#" + NormalizePath(target)
  {
    var p := NormalizePath(target);
    if n.hash != HashOf(p) {
      assert StripHash(HashOf(p)) == p;
      NormalizeIdempotent(target);
    }
  }

  /** Navigating again to the same place writes nothing. */
  lemma NavigateTwiceNoWrite(n: Nav, target: string)
    ensures !Navigate(Settle(Navigate(n, target)), target).wroteHash
    ensures Settle(Navigate(Settle(Navigate(n, target)), target)) == Settle(Navigate(n, target))
  {
    NavigateSettles(n, target);
  }

  /** Targets that normalise alike lead to the same settled state. */
  lemma NavigateSeesOnlyNormalized(n: Nav, a: string, b: string)
    requires NormalizePath(a) == NormalizePath(b)
    ensures Settle(Navigate(n, a)) == Settle(Navigate(n, b))
  {
    NavigateSettles(n, a);
    NavigateSettles(n, b);
  }

  /** Normalisation only removes a `#` and adds `/`, so any other character
      absent from the input is absent from the route. */
  lemma NormalizeKeepsAbsent(raw: string, c: char)
    requires c != '/' && c !in raw
    ensures c !in NormalizePath(raw)
  {
    NormalizeShape(raw);
    var next := StripHash(raw);
    assert forall i :: 0 <= i < |next| ==> next[i] in raw;
    var b := Body(raw);
    assert forall i :: 0 <= i < |b| ==> b[i] in next;
  }
}

=== FILE: routes.dfy ===
/** Route dispatch: the page each normalised path shows, in the two
    application shells (src/index.jsx and src/App.jsx), and the sub-view the
    Log screen (src/Log.jsx) picks from the path. */
module Routes {
  import opened Strings
  import opened Router

  /** The pages a route can show. `Verify`, `Rate` and `LoggedOut` are
      placeholder pages; `LoggedOut` is shown after signing out. */
  datatype Page =
    | Home | Login | Signup | Find | Locations | Circles | Log | CheckIn
    | Account | Admin | Verify | Rate | LoggedOut | NotFound

  /** A route table: the page for each listed path, `NotFound` otherwise. */
  function Lookup(table: map<string, Page>, p: string): Page {
    if p in table then table[p] else NotFound
  }

  // ---------------------------------------------------------------- index.jsx

  /** The `switch (currentPath)` of the `App` in src/index.jsx. */
  function IndexPageFor(p: string): Page {
    if p == "/" then Home
    else if p == "/login/" then Login
    else if p == "/signup/" then Signup
    else if p == "/find/" || p == "/find/therapist/" || p == "/find/sober-living/" || p == "/find/meetings/" then Find
    else if p == "/locations/" then Locations
    else if p == "/circles/" then Circles
    else if p == "/log/" then Log
    else if p == "/account/" then Account
    else if p == "/admin/" then Admin
    else if p == "/verify/" then Verify
    else if p == "/rate/" then Rate
    else if p == "/logout/" then LoggedOut
    else NotFound
  }

  /** The routes src/index.jsx lists, written as a table, last case first. */
  const IndexTable: map<string, Page> := map[
    "/logout/" := LoggedOut, "/rate/" := Rate, "/verify/" := Verify, "/admin/" := Admin,
    "/account/" := Account, "/log/" := Log, "/circles/" := Circles, "/locations/" := Locations,
    "/find/meetings/" := Find, "/find/sober-living/" := Find, "/find/therapist/" := Find, "/find/" := Find,
    "/signup/" := Signup, "/login/" := Login, "/" := Home
  ]

  /** The page src/index.jsx shows for the router's path: dispatch sees the
      normalised path only, and agrees with the route table. */
  function IndexRoute(path: string): Page {
    IndexPageFor(NormalizePath(path))
  }

  /** The `switch` agrees with the route table on every path, so it answers
      `NotFound` exactly for the paths the table does not list. */
  lemma IndexSwitchIsTable(p: string)
    ensures IndexPageFor(p) == Lookup(IndexTable, p)
    ensures IndexPageFor(p) == NotFound <==> p !in IndexTable
  {
    if p in IndexTable {
      assert IndexPageFor(p) == IndexTable[p] != NotFound;
    } else {
      assert IndexPageFor(p) == NotFound;
    }
  }

  /** Every path that normalises alike is dispatched alike; in particular
      dispatching the normalised path changes nothing. */
  lemma IndexRouteOnlyNormalized(a: string, b: string)
    requires NormalizePath(a) == NormalizePath(b)
    ensures IndexRoute(a) == IndexRoute(b)
    ensures IndexRoute(NormalizePath(a)) == IndexRoute(a)
  {
    NormalizeIdempotent(a);
  }

  /** The four finder paths all show Find. */
  lemma IndexFindRoutes()
    ensures IndexRoute("/find/") == Find
    ensures IndexRoute("/find/therapist/") == Find
    ensures IndexRoute("/find/sober-living/") == Find
    ensures IndexRoute("/find/meetings/") == Find
  {
    NormalizeFixedIff("/find/");
    NormalizeFixedIff("/find/therapist/");
    NormalizeFixedIff("/find/sober-living/");
    NormalizeFixedIff("/find/meetings/");
  }

  /** Missing slashes or a leading `#` do not change the page. */
  lemma IndexFindUnnormalized()
    ensures IndexRoute("find/therapist") == Find
    ensures IndexRoute("#/find/meetings") == Find
  {
    NormalizeBare("find/therapist");
    assert "/" + "find/therapist" + "/" == "/find/therapist/";
    NormalizeHashed("/find/meetings");
    NormalizeLeading("/find/meetings");
    assert "#" + "/find/meetings" == "#/find/meetings";
    assert "/find/meetings" + "/" == "/find/meetings/";
  }

  // ------------------------------------------------------------------ App.jsx

  /** `currentPath` in src/App.jsx: the text before the first `?` of the
      path (an empty path counts as `/`), with an empty prefix counting as
      `/`, normalised. */
  function AppCurrentPath(path: string): (r: string)
    ensures IsNormalized(r)
    ensures '?' !in r
    ensures r == NormalizePath(BeforeFirst(path, '?'))
  {
    var raw := BeforeFirst(if path == "" then "/" else path, '?');
    NormalizeKeepsAbsent(raw, '?');
    NormalizePath(if raw == "" then "/" else raw)
  }

  /** A query string after the path has no effect on the route. */
  lemma AppCurrentPathIgnoresQuery(p: string, q: string)
    requires '?' !in p
    ensures AppCurrentPath(p) == NormalizePath(p)
    ensures AppCurrentPath(p + "?" + q) == NormalizePath(p)
  {
    FirstIndexAfterPrefix(p, '?', q);
    assert (p + "?" + q)[..|p|] == p;
  }

  /** The `switch (currentPath)` of src/App.jsx. */
  function AppPageFor(p: string): Page {
    if p == "/" then Home
    else if p == "/login/" then Login
    else if p == "/signup/" then Signup
    else if p == "/find/" || p == "/find/therapist/" || p == "/find/sober-living/" || p == "/find/meetings/" then Find
    else if p == "/circles/" || p == "/circles/join/" || p == "/circles/create/" || p == "/circles/invites/" then Circles
    else if p == "/log/" || p == "/log/milestone/" || p == "/log/goal/" || p == "/log/trigger/" then Log
    else if p == "/checkin/" then CheckIn
    else if p == "/account/" then Account
    else if p == "/admin/" then Admin
    else if p == "/rate/" then Rate
    else if p == "/logout/" then LoggedOut
    else NotFound
  }

  /** The routes src/App.jsx lists, written as a table, last case first. */
  const AppTable: map<string, Page> := map[
    "/logout/" := LoggedOut, "/rate/" := Rate, "/admin/" := Admin, "/account/" := Account,
    "/checkin/" := CheckIn, "/log/trigger/" := Log, "/log/goal/" := Log, "/log/milestone/" := Log,
    "/log/" := Log, "/circles/invites/" := Circles, "/circles/create/" := Circles, "/circles/join/" := Circles,
    "/circles/" := Circles, "/find/meetings/" := Find, "/find/sober-living/" := Find, "/find/therapist/" := Find,
    "/find/" := Find, "/signup/" := Signup, "/login/" := Login, "/" := Home
  ]

  /** The page src/App.jsx shows: the table entry for the query-free,
      normalised path, and `NotFound` exactly for unlisted paths. */
  function AppRoute(path: string): Page {
    AppPageFor(AppCurrentPath(path))
  }

  /** The `switch` agrees with the route table on every path, so it answers
      `NotFound` exactly for the paths the table does not list. */
  lemma AppSwitchIsTable(p: string)
    ensures AppPageFor(p) == Lookup(AppTable, p)
    ensures AppPageFor(p) == NotFound <==> p !in AppTable
  {
    if p in AppTable {
      assert AppPageFor(p) == AppTable[p] != NotFound;
    } else {
      assert AppPageFor(p) == NotFound;
    }
  }

  /** On a normalised path without a query, src/App.jsx dispatches the path
      itself. */
  lemma AppRouteOfNormalized(p: string)
    requires IsNormalized(p) && '?' !in p
    ensures AppRoute(p) == AppPageFor(p)
  {
    AppCurrentPathIgnoresQuery(p, "");
    NormalizeFixedIff(p);
  }

  /** `/logout/` is the last listed case before the fallback. */
  lemma AppLogoutRoute()
    ensures AppRoute("/logout/") == LoggedOut
  {
    AppRouteOfNormalized("/logout/");
  }

  /** Circles owns its sub-paths. */
  lemma AppCirclesRoutes()
    ensures AppRoute("/circles/") == Circles
    ensures AppRoute("/circles/join/") == Circles
  {
    AppRouteOfNormalized("/circles/");
    AppRouteOfNormalized("/circles/join/");
  }

  lemma AppCirclesSubRoutes()
    ensures AppRoute("/circles/create/") == Circles
    ensures AppRoute("/circles/invites/") == Circles
  {
    AppRouteOfNormalized("/circles/create/");
    AppRouteOfNormalized("/circles/invites/");
  }

  /** Log owns its sub-paths. */
  lemma AppLogRoutes()
    ensures AppRoute("/log/") == Log
    ensures AppRoute("/log/milestone/") == Log
  {
    AppRouteOfNormalized("/log/");
    AppRouteOfNormalized("/log/milestone/");
  }

  lemma AppLogSubRoutes()
    ensures AppRoute("/log/goal/") == Log
    ensures AppRoute("/log/trigger/") == Log
  {
    AppRouteOfNormalized("/log/goal/");
    AppRouteOfNormalized("/log/trigger/");
  }

  /** `/verify/` is no longer routed, so it falls through to NotFound. */
  lemma AppVerifyNotFound()
    ensures AppRoute("/verify/") == NotFound
  {
    AppRouteOfNormalized("/verify/");
  }

  /** A query after the path does not change the page, whatever the path
      and the query. */
  lemma AppRouteIgnoresQuery(p: string, q: string)
    requires '?' !in p
    ensures AppRoute(p + "?" + q) == AppRoute(p)
  {
    AppCurrentPathIgnoresQuery(p, q);
  }

  /** `/log/goal/` is a normalised, query-free path that src/App.jsx
      dispatches to the Log screen. */
  lemma LogGoalIsListed()
    ensures IsNormalized("/log/goal/") && '?' !in "/log/goal/"
    ensures AppPageFor("/log/goal/") == Log
    ensures "/log/goal/" + "?" == "/log/goal/?"
  {
  }

  /** So a listed Log sub-path with any query still shows the Log screen. */
  lemma AppQueryIgnored(q: string)
    ensures AppRoute("/log/goal/?" + q) == Log
  {
    var p := "/log/goal/";
    LogGoalIsListed();
    AppRouteOfNormalized(p);
    AppRouteIgnoresQuery(p, q);
  }

  // ------------------------------------------------------------------ Log.jsx

  /** The Log screen's sub-views. */
  datatype LogView = Daily | Milestone | Goal | Trigger

  /** The Log screen normalises the router path (an empty one counts as `/`)
      and picks a sub-view; anything unlisted falls back to the daily log. */
  function SelectLogView(path: string): (v: LogView)
    ensures v == Milestone <==> NormalizePath(path) == "/log/milestone/"
    ensures v == Goal <==> NormalizePath(path) == "/log/goal/"
    ensures v == Trigger <==> NormalizePath(path) == "/log/trigger/"
  {
    var currentPath := NormalizePath(if path == "" then "/" else path);
    if currentPath == "/log/milestone/" then Milestone
    else if currentPath == "/log/goal/" then Goal
    else if currentPath == "/log/trigger/" then Trigger
    else Daily
  }

  /** The slashes do not matter: three spellings of the goal route all show
      the goal form, while `/log/` and unknown paths show the daily log. */
  lemma LogViewExamples()
    ensures SelectLogView("log/goal") == Goal
    ensures SelectLogView("/log/goal") == Goal
    ensures SelectLogView("/log/goal/") == Goal
    ensures SelectLogView("/log/") == Daily
    ensures SelectLogView("/log/unknown/") == Daily
  {
    NormalizeBare("log/goal");
    assert "/" + "log/goal" + "/" == "/log/goal/";
    NormalizeLeading("/log/goal");
    assert "/log/goal" + "/" == "/log/goal/";
    NormalizeFixedIff("/log/goal/");
    NormalizeFixedIff("/log/");
    NormalizeFixedIff("/log/unknown/");
  }

  /** The three sub-view routes differ from `/log/goal/?` in length or in
      their sixth character. */
  lemma SubViewRoutesDiffer()
    ensures |"/log/goal/"| == 10 && "/log/milestone/"[5] == 'm' && "/log/trigger/"[5] == 't'
    ensures |"/log/goal/?"| == 11 && "/log/goal/?"[5] == 'g'
  {
  }

  /** The Log screen reads the router path as it is, without dropping a
      query: `/log/goal/` with a query is routed to the Log screen by
      src/App.jsx on account of its query-free part, yet shows the daily
      view. */
  lemma LogViewKeepsQuery(q: string)
    ensures AppRoute("/log/goal/?" + q) == Log
    ensures SelectLogView("/log/goal/?" + q) == Daily
  {
    AppQueryIgnored(q);
    var a := "/log/goal/?";
    var x := a + q;
    SubViewRoutesDiffer();
    assert x[0] == a[0] && x[5] == a[5];
    NormalizeKeepsPrefix(x);
    var n := NormalizePath(x);
    assert n[5] == 'g' && |n| > 10;
    assert n != "/log/goal/";
    assert n != "/log/milestone/";
    assert n != "/log/trigger/";
  }

  /** `goToDaily`: navigate to `/log/`. */
  function GoToDaily(n: Nav): (s: NavStep)
    ensures Settle(s).path == "/log/"
    ensures SelectLogView(Settle(s).path) == Daily
  {
    NavigateSettles(n, "/log/");
    NormalizeFixedIff("/log/");
    Navigate(n, "/log/")
  }
}

=== FILE: session.dfy ===
/** The signed-in user kept by the application shell (src/App.jsx and the
    `App` of src/index.jsx): signing in or up, signing out, and the
    `/logout/` route that signs out while it renders. */
module Session {
  import opened Strings
  import opened Router
  import opened Routes

  datatype User = User(username: string, email: string, dateJoined: string)

  /** The shell's state: whether someone is signed in, who, and the router. */
  datatype Shell = Shell(authenticated: bool, user: User, nav: Nav)

  const DemoUser := User("Alex Mercer", "alex@circley.com", "Jan 12, 2024")
  const GuestUser := User("Guest", "guest@example.com", "—")

  /** The shell at start-up: signed in as the demo user, on the page the
      address names, with an empty hash filled in as `#/`. */
  function Start(hash: string): (t: Shell)
    ensures t.authenticated && t.user == DemoUser
    ensures t.nav.path == NormalizePath(StripHash(hash)) && IsNormalized(t.nav.path)
    ensures hash == "" ==> t.nav.hash == "#/"
    ensures hash != "" ==> t.nav.hash == hash
  {
    Shell(true, DemoUser, Mount(hash))
  }

  /** `email ? email.split('@')[0] : 'Member'`: for a non-empty email, the
      part before the first `@`, which is the longest `@`-free prefix;
      `Member` for an empty one. */
  function UsernameFor(email: string): (r: string)
    ensures email == "" ==> r == "Member"
    ensures email != "" ==> StartsWith(email, r) && '@' !in r
    ensures email != "" && '@' in email ==> |r| < |email| && email[|r|] == '@'
    ensures email != "" && '@' !in email ==> r == email
  {
    if email == "" then "Member" else BeforeFirst(email, '@')
  }

  /** The username is the one and only `@`-free prefix that is followed by
      an `@` or ends the email. */
  lemma UsernameUnique(email: string, u: string)
    requires email != "" && StartsWith(email, u) && '@' !in u
    requires |u| == |email| || email[|u|] == '@'
    ensures u == UsernameFor(email)
  {
    var r := UsernameFor(email);
    assert u == email[..|u|] && r == email[..|r|];
  }

  lemma UsernameExamples()
    ensures UsernameFor("sam@example.com") == "sam"
    ensures UsernameFor("sam") == "sam"
    ensures UsernameFor("") == "Member"
    ensures UsernameFor("@host") == ""
  {
    UsernameUnique("sam@example.com", "sam");
    UsernameUnique("@host", "");
    assert '@' !in "sam";
  }

  /** `handleLogin` and `handleSignup`, which are the same code: sign in as
      the email's owner, keep the old email if none was given, and go home. */
  function SignIn(s: Shell, email: string): (t: Shell)
    ensures t.authenticated
    ensures t.user == User(UsernameFor(email), if email == "" then s.user.email else email, "Today")
    ensures t.nav.path == "/" && t.nav.hash == "#/"
  {
    NavigateSettles(s.nav, "/");
    NormalizeFixedIff("/");
    Shell(true, User(UsernameFor(email), if email == "" then s.user.email else email, "Today"),
          Settle(Navigate(s.nav, "/")))
  }

  /** `handleLogout`: signed out as the guest user, and back home. */
  function SignOut(s: Shell): (t: Shell)
    ensures !t.authenticated && t.user == GuestUser
    ensures t.nav.path == "/" && t.nav.hash == "#/"
  {
    NavigateSettles(s.nav, "/");
    NormalizeFixedIff("/");
    Shell(false, GuestUser, Settle(Navigate(s.nav, "/")))
  }

  /** One render of src/App.jsx: the page for the router path; on
      `/logout/` the render also signs out. Any other page leaves the state
      alone. The sign-out is taken as one clean step; React's immediate
      re-render of a component that updates its own state while rendering
      is not modelled. */
  function RenderApp(s: Shell): (r: (Page, Shell))
    ensures r.0 == AppRoute(s.nav.path)
    ensures r.0 == LoggedOut ==> !r.1.authenticated && r.1.user == GuestUser && r.1.nav.path == "/"
    ensures r.0 != LoggedOut ==> r.1 == s
  {
    var page := AppRoute(s.nav.path);
    if page == LoggedOut then (page, SignOut(s)) else (page, s)
  }

  /** The same for the `App` of src/index.jsx. */
  function RenderIndexApp(s: Shell): (r: (Page, Shell))
    ensures r.0 == IndexRoute(s.nav.path)
    ensures r.0 == LoggedOut ==> !r.1.authenticated && r.1.user == GuestUser && r.1.nav.path == "/"
    ensures r.0 != LoggedOut ==> r.1 == s
  {
    var page := IndexRoute(s.nav.path);
    if page == LoggedOut then (page, SignOut(s)) else (page, s)
  }

  /** Opening the application at `#/logout/` signs the demo user out during
      the first render and leaves the guest at home. */
  lemma StartAtLogout()
    ensures RenderApp(Start("#/logout/")).0 == LoggedOut
    ensures RenderApp(Start("#/logout/")).1.user == GuestUser
    ensures !RenderApp(Start("#/logout/")).1.authenticated
    ensures RenderApp(Start("#/logout/")).1.nav == Nav("#/", "/")
  {
    var p := "/logout/";
    assert IsNormalized(p) by { assert p[0] == '/' && p[|p| - 1] == '/'; }
    assert "#" + p == "#/logout/";
    StartOnNormalized(p);
    AppLogoutRoute();
  }

  /** Opening the application on any other page keeps the demo user signed
      in through the first render. */
  lemma StartElsewhereKeepsUser(hash: string)
    requires AppRoute(Start(hash).nav.path) != LoggedOut
    ensures RenderApp(Start(hash)).1 == Start(hash)
    ensures RenderApp(Start(hash)).1.authenticated && RenderApp(Start(hash)).1.user == DemoUser
  {
  }

  /** Opening the application at `#` followed by a normalised path starts
      on that path. */
  lemma StartOnNormalized(p: string)
    requires IsNormalized(p)
    ensures Start("#" + p).nav.path == p
  {
    assert StripHash("#" + p) == p;
    NormalizeFixedIff(p);
  }

  /** After the sign-out render the next render shows Home, signed out. */
  lemma LogoutThenHome(s: Shell)
    requires AppRoute(s.nav.path) == LoggedOut
    ensures RenderApp(RenderApp(s).1).0 == Home
    ensures !RenderApp(RenderApp(s).1).1.authenticated
  {
    AppRouteOfNormalized("/");
  }
}

=== FILE: signup_flow.dfy ===
/** The two-step sign-up screen (src/Signup.jsx): first the visitor picks
    who they are, then fills in email and password. Each handler is a step
    on the screen's state; the submit checks run in a fixed order and report
    the first failure only. */
module SignupFlow {
  import opened Optional

  /** The four kinds of user offered on the first step, in display order. */
  datatype UserType = Seeker | Organization | Sponsor | Provider

  const UserTypes: seq<UserType> := [Seeker, Organization, Sponsor, Provider]

  function Id(t: UserType): string {
    match t
    case Seeker => "seeker"
    case Organization => "organization"
    case Sponsor => "sponsor"
    case Provider => "provider"
  }

  function Label(t: UserType): string {
    match t
    case Seeker => "Looking for Help"
    case Organization => "Business or Institution"
    case Sponsor => "Sponsor"
    case Provider => "Healthcare Professional"
  }

  const NoTypeLabel := "Choose who you are"
  const PickTypeError := "Pick the option that best describes you."
  const EmptyFieldError := "Please fill out all fields."
  const NoRoleError := "Select your role to continue."
  const MismatchError := "Passwords do not match."

  datatype Field = Email | Password | Confirm

  datatype SignupForm = SignupForm(email: string, password: string, confirm: string)

  /** The screen's state: the error shown (absent for none), the step (1 or
      2), the chosen type's id, and the three fields. */
  datatype State = State(formError: Option<string>, step: nat, userType: Option<string>, form: SignupForm)

  /** What the screen hands to its `onSignup` callback. */
  datatype SignupRequest = SignupRequest(email: string, userType: string)

  /** `!userType`: no type chosen (an empty id would count as none too). */
  predicate NoType(u: Option<string>) {
    u.None? || u.value == ""
  }

  /** The screen as it mounts: the `error` prop shown if non-empty, step 1,
      no type, empty fields. */
  function Initial(error: string): (s: State)
    ensures s.step == 1 && s.userType == None && s.form == SignupForm("", "", "")
    ensures s.formError.Some? <==> error != ""
  {
    State(if error == "" then None else Some(error), 1, None, SignupForm("", "", ""))
  }

  /** `USER_TYPES.find(t => t.id === userType)`: the first listed type with
      the chosen id. */
  function FindType(types: seq<UserType>, u: Option<string>): (r: Option<UserType>)
    ensures r.Some? ==> r.value in types && u == Some(Id(r.value))
    ensures r.None? ==> forall t :: t in types ==> u != Some(Id(t))
  {
    if types == [] then None
    else if u == Some(Id(types[0])) then Some(types[0])
    else FindType(types[1..], u)
  }

  /** `activeUserLabel`: the label of the chosen type, or the prompt when the
      id matches no type. */
  function ActiveUserLabel(u: Option<string>): (l: string)
    ensures (exists t :: u == Some(Id(t))) ==> exists t :: u == Some(Id(t)) && l == Label(t)
    ensures (forall t :: u != Some(Id(t))) ==> l == NoTypeLabel
  {
    var found := FindType(UserTypes, u);
    if found.Some? then Label(found.value) else NoTypeLabel
  }

  /** Choosing a type shows its own label: the ids are distinct. */
  lemma LabelOfChosenType(t: UserType)
    ensures ActiveUserLabel(Some(Id(t))) == Label(t)
  {
  }

  /** A type button: that type becomes the chosen one. */
  function SelectType(s: State, t: UserType): (r: State)
    ensures r.userType == Some(Id(t)) && !NoType(r.userType)
    ensures r.form == s.form && r.step == s.step && r.formError == s.formError
  {
    s.(userType := Some(Id(t)))
  }

  /** `handleTypeContinue`: with no type chosen the screen stays on step 1
      and asks for one; otherwise the error is cleared and step 2 shown. */
  function TypeContinue(s: State): (r: State)
    ensures NoType(s.userType) ==> r == s.(formError := Some(PickTypeError))
    ensures r.step == 2 <==> !NoType(s.userType) || s.step == 2
    ensures !NoType(s.userType) ==> r.formError == None && r.step == 2
    ensures r.userType == s.userType && r.form == s.form
  {
    if NoType(s.userType) then s.(formError := Some(PickTypeError))
    else s.(formError := None, step := 2)
  }

  /** The Back button: step 1 again, with the chosen type and every field
      kept. */
  function Back(s: State): (r: State)
    ensures r.step == 1
    ensures r.userType == s.userType && r.form == s.form && r.formError == s.formError
  {
    s.(step := 1)
  }

  /** `handleFieldChange(key)`: the one field takes the typed value. */
  function FieldChange(s: State, key: Field, value: string): (r: State)
    ensures key == Email ==> r.form.email == value
    ensures key == Password ==> r.form.password == value
    ensures key == Confirm ==> r.form.confirm == value
    ensures key != Email ==> r.form.email == s.form.email
    ensures key != Password ==> r.form.password == s.form.password
    ensures key != Confirm ==> r.form.confirm == s.form.confirm
    ensures r.step == s.step && r.userType == s.userType && r.formError == s.formError
  {
    var f := s.form;
    var f' := match key
      case Email => f.(email := value)
      case Password => f.(password := value)
      case Confirm => f.(confirm := value);
    s.(form := f')
  }

  /** `handleSubmit`: an empty field is reported first, then a missing type,
      then disagreeing passwords; only when all three checks pass is the
      error cleared and the email and type id handed on. */
  function Submit(s: State): (r: (State, Option<SignupRequest>))
    ensures r.0.step == s.step && r.0.userType == s.userType && r.0.form == s.form
    ensures r.1.Some? <==>
      s.form.email != "" && s.form.password != "" && s.form.confirm != ""
      && !NoType(s.userType) && s.form.password == s.form.confirm
    ensures r.1.Some? ==>
      r.0.formError == None && r.1.value == SignupRequest(s.form.email, s.userType.value)
    ensures s.form.email == "" || s.form.password == "" || s.form.confirm == "" ==>
      r.0.formError == Some(EmptyFieldError)
    ensures s.form.email != "" && s.form.password != "" && s.form.confirm != "" && NoType(s.userType) ==>
      r.0.formError == Some(NoRoleError)
    ensures (s.form.email != "" && s.form.password != "" && s.form.confirm != "" && !NoType(s.userType)
             && s.form.password != s.form.confirm) ==>
      r.0.formError == Some(MismatchError)
  {
    var f := s.form;
    if f.email == "" || f.password == "" || f.confirm == "" then
      (s.(formError := Some(EmptyFieldError)), None)
    else if NoType(s.userType) then
      (s.(formError := Some(NoRoleError)), None)
    else if f.password != f.confirm then
      (s.(formError := Some(MismatchError)), None)
    else
      (s.(formError := None), Some(SignupRequest(f.email, s.userType.value)))
  }

  /** The states the screen can reach: step 1 or 2, and the chosen type,
      if any, is one of the listed ones. */
  predicate Reachable(s: State) {
    (s.step == 1 || s.step == 2) && (s.userType.Some? ==> exists t :: s.userType.value == Id(t))
  }

  /** Every handler keeps the screen in a reachable state. */
  lemma StepsKeepReachable(s: State, t: UserType, key: Field, value: string)
    requires Reachable(s)
    ensures Reachable(Initial(value))
    ensures Reachable(SelectType(s, t)) && Reachable(TypeContinue(s)) && Reachable(Back(s))
    ensures Reachable(FieldChange(s, key, value)) && Reachable(Submit(s).0)
  {
  }

  /** In a reachable state a chosen type always has its label shown, never
      the prompt. */
  lemma ChosenTypeHasLabel(s: State)
    requires Reachable(s) && s.userType.Some?
    ensures ActiveUserLabel(s.userType) != NoTypeLabel
  {
    var u :| s.userType.value == Id(u);
    LabelOfChosenType(u);
  }

  /** Going back and continuing again returns to the very same second step:
      Back loses nothing the visitor entered. */
  lemma BackThenContinue(s: State)
    requires !NoType(s.userType)
    ensures TypeContinue(Back(TypeContinue(s))) == TypeContinue(s)
  {
  }

  /** The second step cannot be reached without choosing a type. */
  lemma NoStepTwoWithoutType(error: string, key: Field, value: string)
    ensures TypeContinue(FieldChange(Initial(error), key, value)).step == 1
    ensures TypeContinue(FieldChange(Initial(error), key, value)).formError == Some(PickTypeError)
  {
  }

  /** The title and the body shown follow the step. */
  function Title(s: State): (t: string)
    ensures s.step == 1 <==> t == "Who are you?"
    ensures s.step != 1 <==> t == "Sign Up"
  {
    if s.step == 1 then "Who are you?" else "Sign Up"
  }
}

=== FILE: strings.dfy ===
/** The JavaScript string operations the screens rely on, written out over
    `seq<char>`: `startsWith`, `includes`, `toLowerCase` (ASCII letters only),
    `trim`, `split` on one character, and the decimal rendering of a
    non-negative integer used by template literals. */
module Strings {

  /** `s.startsWith(p)` */
  predicate StartsWith(s: string, p: string) {
    |p| <= |s| && s[..|p|] == p
  }

  /** `s.endsWith(c)` for a one-character argument */
  predicate EndsWithChar(s: string, c: char) {
    |s| > 0 && s[|s| - 1] == c
  }

  /** `sub` sits in `s` at position `i` */
  predicate OccursAt(s: string, sub: string, i: nat) {
    i + |sub| <= |s| && s[i..i + |sub|] == sub
  }

  /** `s.includes(sub)`: try every start position from the left */
  predicate Includes(s: string, sub: string)
    decreases |s|
  {
    StartsWith(s, sub) || (|s| > 0 && Includes(s[1..], sub))
  }

  /** The scan finds `sub` exactly when it occurs at some position. */
  lemma {:induction false} IncludesIffOccurs(s: string, sub: string)
    ensures Includes(s, sub) <==> exists i :: 0 <= i <= |s| && OccursAt(s, sub, i)
    decreases |s|
  {
    if StartsWith(s, sub) {
      assert OccursAt(s, sub, 0);
    } else if |s| == 0 {
    } else {
      IncludesIffOccurs(s[1..], sub);
      if Includes(s[1..], sub) {
        var j :| 0 <= j <= |s[1..]| && OccursAt(s[1..], sub, j);
        assert s[j + 1..j + 1 + |sub|] == s[1..][j..j + |sub|];
        assert OccursAt(s, sub, j + 1);
      } else {
        forall i | 0 <= i <= |s| && OccursAt(s, sub, i)
          ensures false
        {
          if i > 0 {
            assert s[1..][i - 1..i - 1 + |sub|] == s[i..i + |sub|];
            assert OccursAt(s[1..], sub, i - 1);
          }
        }
      }
    }
  }

  /** Nothing longer than `s` occurs in it. */
  lemma {:induction false} IncludesNeedsRoom(s: string, sub: string)
    requires |sub| > |s|
    ensures !Includes(s, sub)
    decreases |s|
  {
    if |s| > 0 {
      IncludesNeedsRoom(s[1..], sub);
    }
  }

  /** `toLowerCase` restricted to the ASCII letters */
  function LowerChar(c: char): char {
    if 'A' <= c <= 'Z' then (c as int + 32) as char else c
  }

  /** `toLowerCase` on ASCII letters: no capital is left, every other
      character is kept, and each capital becomes its small letter. */
  function ToLower(s: string): (r: string)
    ensures |r| == |s|
    ensures forall i :: 0 <= i < |r| ==> !('A' <= r[i] <= 'Z')
    ensures forall i :: 0 <= i < |s| && !('A' <= s[i] <= 'Z') ==> r[i] == s[i]
    ensures forall i :: 0 <= i < |s| && 'A' <= s[i] <= 'Z' ==> r[i] as int == s[i] as int + 32
  {
    seq(|s|, i requires 0 <= i < |s| => LowerChar(s[i]))
  }

  /** Lowercasing changes a text exactly when it holds a capital, so a
      lowercased text is left alone by a second pass. */
  lemma ToLowerFixedIff(s: string)
    ensures ToLower(s) == s <==> forall i :: 0 <= i < |s| ==> !('A' <= s[i] <= 'Z')
    ensures ToLower(ToLower(s)) == ToLower(s)
  {
    if ToLower(s) == s {
      forall i | 0 <= i < |s| ensures !('A' <= s[i] <= 'Z') {
        assert ToLower(s)[i] == s[i];
      }
    }
  }

  /** The characters `String.prototype.trim` removes: ECMAScript WhiteSpace
      (tab, vertical tab, form feed, the byte order mark and the Zs space
      separators) and LineTerminator (LF, CR, U+2028, U+2029). */
  predicate IsWhitespace(c: char) {
    || c == '\t' || c == '\n' || c == '\U{000B}' || c == '\U{000C}' || c == '\r'
    || c == ' ' || c == '\U{00A0}' || c == '\U{1680}'
    || ('\U{2000}' <= c <= '\U{200A}')
    || c == '\U{2028}' || c == '\U{2029}' || c == '\U{202F}' || c == '\U{205F}'
    || c == '\U{3000}' || c == '\U{FEFF}'
  }

  /** Drops leading whitespace: the result is a suffix of `s`, everything
      dropped is whitespace, and what is left does not start with whitespace. */
  function TrimStart(s: string): (r: string)
    ensures |r| <= |s| && r == s[|s| - |r|..]
    ensures forall i :: 0 <= i < |s| - |r| ==> IsWhitespace(s[i])
    ensures r == [] || !IsWhitespace(r[0])
    decreases |s|
  {
    if |s| > 0 && IsWhitespace(s[0]) then TrimStart(s[1..]) else s
  }

  /** Drops trailing whitespace, symmetrically to `TrimStart`. */
  function TrimEnd(s: string): (r: string)
    ensures |r| <= |s| && r == s[..|r|]
    ensures forall i :: |r| <= i < |s| ==> IsWhitespace(s[i])
    ensures r == [] || !IsWhitespace(r[|r| - 1])
    decreases |s|
  {
    if |s| > 0 && IsWhitespace(s[|s| - 1]) then TrimEnd(s[..|s| - 1]) else s
  }

  /** `s.trim()` is empty exactly when `s` is blank, and otherwise starts
      and ends with a non-whitespace character. */
  function Trim(s: string): (r: string)
    ensures r == [] <==> forall i :: 0 <= i < |s| ==> IsWhitespace(s[i])
    ensures r == [] || (!IsWhitespace(r[0]) && !IsWhitespace(r[|r| - 1]))
  {
    TrimBothEnds(s);
    TrimEnd(TrimStart(s))
  }

  /** Trimming the start and then the end leaves nothing exactly for blank
      text, and otherwise non-whitespace at both ends. */
  lemma TrimBothEnds(s: string)
    ensures var r := TrimEnd(TrimStart(s));
      && (r == [] <==> forall i :: 0 <= i < |s| ==> IsWhitespace(s[i]))
      && (r == [] || (!IsWhitespace(r[0]) && !IsWhitespace(r[|r| - 1])))
  {
    var t := TrimStart(s);
    if TrimEnd(t) == [] {
      // a non-empty `t` starts with non-whitespace, which `TrimEnd` keeps
      assert t == [];
    }
  }

  /** `trim` removes the leading and trailing whitespace and nothing else:
      its result is a slice of `s` with only whitespace around it. */
  lemma TrimRemovesOuterWhitespace(s: string)
    ensures exists a ::
              && 0 <= a <= |s| - |Trim(s)|
              && Trim(s) == s[a..][..|Trim(s)|]
              && (forall i :: 0 <= i < a ==> IsWhitespace(s[i]))
              && (forall i :: a + |Trim(s)| <= i < |s| ==> IsWhitespace(s[i]))
  {
    var t := TrimStart(s);
    var r := TrimEnd(t);
    assert Trim(s) == r;
    var a := |s| - |t|;
    assert t == s[a..];
    assert r == t[..|r|];
    forall i | a + |r| <= i < |s|
      ensures IsWhitespace(s[i])
    {
      assert s[i] == t[i - a];
    }
  }

  /** A string that does not start with whitespace loses only trailing
      whitespace to `trim`. */
  lemma TrimFromNonBlankStart(s: string)
    requires s != [] && !IsWhitespace(s[0])
    ensures |Trim(s)| <= |s| && Trim(s) == s[..|Trim(s)|]
    ensures forall i :: |Trim(s)| <= i < |s| ==> IsWhitespace(s[i])
  {
    assert TrimStart(s) == s;
  }

  /** `trim` leaves a string with non-whitespace at both ends alone. */
  lemma TrimKeepsInner(s: string)
    requires s != [] && !IsWhitespace(s[0]) && !IsWhitespace(s[|s| - 1])
    ensures Trim(s) == s
  {
    assert TrimStart(s) == s;
    assert TrimEnd(s) == s;
  }

  /** Position of the first `c` in `s` */
  function FirstIndexOf(s: string, c: char): (i: nat)
    requires c in s
    ensures i < |s| && s[i] == c && c !in s[..i]
  {
    if s[0] == c then 0 else 1 + FirstIndexOf(s[1..], c)
  }

  /** `s.split(sep)` for a one-character separator: the pieces between
      consecutive separators, none of which contains the separator. */
  function Split(s: string, sep: char): (parts: seq<string>)
    ensures |parts| >= 1
    ensures forall k :: 0 <= k < |parts| ==> sep !in parts[k]
    decreases |s|
  {
    if sep !in s then [s]
    else
      var i := FirstIndexOf(s, sep);
      [s[..i]] + Split(s[i + 1..], sep)
  }

  /** `parts.join(sep)` */
  function Join(parts: seq<string>, sep: char): string
    requires |parts| >= 1
  {
    if |parts| == 1 then parts[0] else parts[0] + [sep] + Join(parts[1..], sep)
  }

  /** `s.split(sep)[0]`: the text before the first separator, or all of `s`. */
  function BeforeFirst(s: string, sep: char): (r: string)
    ensures sep !in r
    ensures StartsWith(s, r)
    ensures sep in s ==> |r| < |s| && s[|r|] == sep
    ensures sep !in s ==> r == s
  {
    Split(s, sep)[0]
  }

  /** Joining the pieces of a split gives back the original text. */
  lemma {:induction false} JoinSplit(s: string, sep: char)
    ensures Join(Split(s, sep), sep) == s
    decreases |s|
  {
    if sep in s {
      var i := FirstIndexOf(s, sep);
      var rest := Split(s[i + 1..], sep);
      assert Split(s, sep) == [s[..i]] + rest;
      assert ([s[..i]] + rest)[1..] == rest;
      JoinSplit(s[i + 1..], sep);
      assert s == s[..i] + [sep] + s[i + 1..];
    }
  }

  lemma FirstIndexAfterPrefix(p: string, c: char, q: string)
    requires c !in p
    ensures c in p + [c] + q && FirstIndexOf(p + [c] + q, c) == |p|
    decreases |p|
  {
    var s := p + [c] + q;
    assert s[|p|] == c;
    if |p| > 0 {
      assert s[1..] == p[1..] + [c] + q;
      FirstIndexAfterPrefix(p[1..], c, q);
    }
  }

  /** Splitting a join of separator-free pieces gives back the pieces. */
  lemma {:induction false} SplitJoin(parts: seq<string>, sep: char)
    requires |parts| >= 1
    requires forall k :: 0 <= k < |parts| ==> sep !in parts[k]
    ensures Split(Join(parts, sep), sep) == parts
    decreases |parts|
  {
    if |parts| > 1 {
      var rest := Join(parts[1..], sep);
      var s := parts[0] + [sep] + rest;
      assert Join(parts, sep) == s;
      FirstIndexAfterPrefix(parts[0], sep, rest);
      assert s[..|parts[0]|] == parts[0];
      assert s[|parts[0]| + 1..] == rest;
      assert Split(s, sep) == [parts[0]] + Split(rest, sep);
      assert forall k :: 0 <= k < |parts[1..]| ==> sep !in parts[1..][k];
      SplitJoin(parts[1..], sep);
      assert parts == [parts[0]] + parts[1..];
    }
  }

  function DigitChar(d: nat): (c: char)
    requires d < 10
    ensures '0' <= c <= '9'
  {
    ('0' as int + d) as char
  }

  predicate AllDigits(s: string) {
    forall i :: 0 <= i < |s| ==> '0' <= s[i] <= '9'
  }

  /** Decimal rendering of a non-negative integer, as `${n}` prints it:
      digits only, no leading zero, one character exactly below ten. */
  function NatToDecimal(n: nat): (r: string)
    ensures |r| >= 1 && AllDigits(r)
    ensures |r| == 1 <==> n < 10
    ensures r[0] != '0' || n == 0
    decreases n
  {
    if n < 10 then [DigitChar(n)] else NatToDecimal(n / 10) + [DigitChar(n % 10)]
  }

  /** Reading a digit string back as a number */
  function DecimalValue(s: string): nat
    requires AllDigits(s)
  {
    if s == [] then 0
    else DecimalValue(s[..|s| - 1]) * 10 + (s[|s| - 1] as int - '0' as int)
  }

  /** Printing then reading a number gives the number back. */
  lemma {:induction false} DecimalRoundTrip(n: nat)
    ensures DecimalValue(NatToDecimal(n)) == n
    decreases n
  {
    if n >= 10 {
      var r := NatToDecimal(n);
      DecimalRoundTrip(n / 10);
      assert r[..|r| - 1] == NatToDecimal(n / 10);
    }
  }
}

=== FILE: updates_deck.dfy ===
/** The stacked "updates" cards of the home screen (src/home.jsx): the index
    of the top card, the pointer gesture that swipes it, and the window of
    cards drawn behind it. Only the integer part of the drag style (the
    horizontal offset of the top card) is kept. */
module UpdatesDeck {
  import opened Optional
  import opened HomeHelpers

  /** The number of update cards the home screen lists. */
  const UpdateCount: nat := 5

  /** A horizontal drag beyond this many pixels commits a swipe. */
  const SwipeThreshold: int := 110

  /** A move beyond this many pixels on either axis fixes the gesture's axis. */
  const LockThreshold: int := 8

  // ---------------------------------------------------------------- the index

  /** `maxUpdateIndex`: the last index of a list of `count` cards. */
  function MaxIndex(count: nat): int {
    count - 1
  }

  /** The index lies in `[0, maxIndex]`, or is 0 for an empty list. */
  predicate ValidIndex(count: nat, i: int) {
    0 <= i && (i <= MaxIndex(count) || i == 0)
  }

  /** `goNextUpdate`: one card on, never past the last. */
  function GoNext(count: nat, i: int): (j: int)
    ensures ValidIndex(count, j)
    ensures 0 <= i < MaxIndex(count) ==> j == i + 1
    ensures count > 0 && i == MaxIndex(count) ==> j == i
  {
    Clamp(i + 1, 0, MaxIndex(count))
  }

  /** `goPrevUpdate`: one card back, never before the first. */
  function GoPrev(count: nat, i: int): (j: int)
    ensures ValidIndex(count, j)
    ensures 0 < i <= MaxIndex(count) ==> j == i - 1
    ensures i == 0 ==> j == 0
  {
    Clamp(i - 1, 0, MaxIndex(count))
  }

  /** `jumpToUpdate`: the requested card, or the nearer end of the list. */
  function Jump(count: nat, target: int): (j: int)
    ensures ValidIndex(count, j)
    ensures ValidIndex(count, target) ==> j == target
    ensures target < 0 ==> j == 0
    ensures count > 0 && target > MaxIndex(count) ==> j == MaxIndex(count)
  {
    Clamp(target, 0, MaxIndex(count))
  }

  /** The effect that runs when the list length changes: clamp the index
      into the new list. */
  function Reflow(newCount: nat, i: int): (j: int)
    ensures ValidIndex(newCount, j)
    ensures ValidIndex(newCount, i) ==> j == i
  {
    Clamp(i, 0, MaxIndex(newCount))
  }

  /** Next and previous undo each other away from the ends of the list. */
  lemma NextPrevInverse(count: nat, i: int)
    requires 0 <= i < MaxIndex(count)
    ensures GoPrev(count, GoNext(count, i)) == i
    ensures GoNext(count, GoPrev(count, i + 1)) == i + 1
  {
  }

  /** Shrinking the list from five cards to two while the last card is on
      top brings the second card to the top. */
  lemma ReflowExample()
    ensures Reflow(2, 4) == 1
  {
  }

  // ------------------------------------------------------------ visible cards

  /** The cards drawn: up to three consecutive indices from the top card,
      none past the last. */
  function VisibleWindow(active: int, maxIndex: int): seq<int> {
    seq(Clamp(maxIndex - active + 1, 0, 3), k => active + k)
  }

  /** `visibleCards`: offsets 0, 1 and 2 from the top card, each kept while it
      is not past the last index. */
  method VisibleCards(active: int, maxIndex: int) returns (cards: seq<int>)
    ensures cards == VisibleWindow(active, maxIndex)
    ensures |cards| <= 3
    ensures forall k :: 0 <= k < |cards| ==> cards[k] == active + k && cards[k] <= maxIndex
    ensures active <= maxIndex ==> |cards| >= 1 && cards[0] == active
  {
    cards := [];
    var offset := 0;
    while offset < 3
      invariant 0 <= offset <= 3
      invariant |cards| == Clamp(maxIndex - active + 1, 0, offset)
      invariant forall k :: 0 <= k < |cards| ==> cards[k] == active + k
    {
      var idx := active + offset;
      if idx <= maxIndex {
        cards := cards + [idx];
      }
      offset := offset + 1;
    }
  }

  // ---------------------------------------------------------- pointer gesture

  /** `lockAxis`; `Unlocked` stands for `axisLocked == false`, which the
      source always sets together with `lockAxis`. */
  datatype Axis = Unlocked | LockX | LockY

  /** The `drag` ref: whether a pointer is down and which, where it went
      down, how far it has moved since, and the locked axis. */
  datatype Drag = Drag(isDown: bool, pointerId: Option<int>, startX: int, startY: int,
                       dx: int, dy: int, lock: Axis)

  const IdleDrag := Drag(false, None, 0, 0, 0, 0, Unlocked)

  /** A pointer event: the button (absent for some devices), the pointer's
      id and its position. */
  datatype PointerEvent = PointerEvent(button: Option<int>, pointerId: int, clientX: int, clientY: int)

  /** The deck: list length, top card, gesture, and the top card's
      horizontal offset. */
  datatype Deck = Deck(count: nat, active: int, drag: Drag, offsetX: int)

  predicate Valid(d: Deck) {
    ValidIndex(d.count, d.active)
  }

  const Initial := Deck(UpdateCount, 0, IdleDrag, 0)

  /** The events a gesture listens to come from the pointer that went down. */
  predicate Tracks(g: Drag, e: PointerEvent) {
    g.isDown && g.pointerId == Some(e.pointerId)
  }

  /** `onPointerDown`: a press of a non-primary button is ignored; any other
      starts a fresh gesture at the pointer's position. */
  function PointerDown(d: Deck, e: PointerEvent): (r: Deck)
    ensures e.button.Some? && e.button.value != 0 ==> r == d
    ensures !(e.button.Some? && e.button.value != 0) ==>
      r == d.(drag := Drag(true, Some(e.pointerId), e.clientX, e.clientY, 0, 0, Unlocked))
  {
    if e.button.Some? && e.button.value != 0 then d
    else d.(drag := Drag(true, Some(e.pointerId), e.clientX, e.clientY, 0, 0, Unlocked))
  }

  /** The axis after a move by (dx, dy): an unlocked gesture locks once
      either distance exceeds the threshold, to x on a tie. */
  function LockAfter(lock: Axis, dx: int, dy: int): (a: Axis)
    ensures lock != Unlocked ==> a == lock
    ensures lock == Unlocked ==>
      (a == LockX <==> (Abs(dx) > LockThreshold || Abs(dy) > LockThreshold) && Abs(dx) >= Abs(dy))
    ensures lock == Unlocked ==>
      (a == LockY <==> (Abs(dx) > LockThreshold || Abs(dy) > LockThreshold) && Abs(dx) < Abs(dy))
  {
    if lock != Unlocked then lock
    else if Abs(dx) > LockThreshold || Abs(dy) > LockThreshold then
      (if Abs(dx) >= Abs(dy) then LockX else LockY)
    else Unlocked
  }

  /** `onPointerMove`: ignored unless the tracked pointer is down; otherwise
      records the distance from the start, settles the axis, and moves the
      card with the pointer unless the gesture is a vertical scroll. */
  function PointerMove(d: Deck, e: PointerEvent): (r: Deck)
    ensures !Tracks(d.drag, e) ==> r == d
    ensures Tracks(d.drag, e) ==>
      (r.drag.dx == e.clientX - d.drag.startX && r.drag.dy == e.clientY - d.drag.startY)
    ensures Tracks(d.drag, e) ==> r.drag.lock == LockAfter(d.drag.lock, r.drag.dx, r.drag.dy)
    ensures r.drag.isDown == d.drag.isDown && r.active == d.active && r.count == d.count
    ensures r.drag.pointerId == d.drag.pointerId
    ensures r.drag.startX == d.drag.startX && r.drag.startY == d.drag.startY
    ensures r.drag.lock == LockY ==> r.offsetX == d.offsetX
    ensures Tracks(d.drag, e) && r.drag.lock != LockY ==> r.offsetX == r.drag.dx
  {
    if !Tracks(d.drag, e) then d
    else
      var dx := e.clientX - d.drag.startX;
      var dy := e.clientY - d.drag.startY;
      var lock := LockAfter(d.drag.lock, dx, dy);
      var g := d.drag.(dx := dx, dy := dy, lock := lock);
      if lock == LockY then d.(drag := g) else d.(drag := g, offsetX := dx)
  }

  /** `onPointerUp`, also bound to `pointercancel`: ignored unless the
      tracked pointer is down; otherwise ends the gesture. A horizontal
      drag beyond the threshold swipes (right to the previous card, left to
      the next); a vertical scroll or a short drag leaves the index alone.
      The card returns to rest either way. */
  function PointerUp(d: Deck, e: PointerEvent): (r: Deck)
    ensures !Tracks(d.drag, e) ==> r == d
    ensures Tracks(d.drag, e) ==>
      (!r.drag.isDown && r.offsetX == 0 && r.count == d.count
       && r.drag == d.drag.(isDown := false))
    ensures Tracks(d.drag, e) && (d.drag.lock == LockY || Abs(d.drag.dx) <= SwipeThreshold) ==>
      r.active == d.active
    ensures Tracks(d.drag, e) && d.drag.lock != LockY && d.drag.dx > SwipeThreshold ==>
      r.active == GoPrev(d.count, d.active)
    ensures Tracks(d.drag, e) && d.drag.lock != LockY && d.drag.dx < -SwipeThreshold ==>
      r.active == GoNext(d.count, d.active)
  {
    if !Tracks(d.drag, e) then d
    else
      var g := d.drag.(isDown := false);
      if d.drag.lock == LockY then d.(drag := g, offsetX := 0)
      else if Abs(d.drag.dx) > SwipeThreshold then
        var next := if d.drag.dx > 0 then GoPrev(d.count, d.active) else GoNext(d.count, d.active);
        d.(active := next, drag := g, offsetX := 0)
      else d.(drag := g, offsetX := 0)
  }

  /** Every pointer step keeps the top card inside the list. */
  lemma StepsKeepValid(d: Deck, e: PointerEvent)
    requires Valid(d)
    ensures Valid(PointerDown(d, e)) && Valid(PointerMove(d, e)) && Valid(PointerUp(d, e))
  {
  }

  /** A run of pointer moves. */
  function Moves(d: Deck, es: seq<PointerEvent>): Deck
    decreases |es|
  {
    if es == [] then d else Moves(PointerMove(d, es[0]), es[1..])
  }

  /** Distances are measured from the press, not accumulated: after any
      run of moves of the pressed pointer, the gesture's distances are those
      of the last move from the starting point, which stays put. */
  lemma {:induction false} MovesMeasureFromPress(d: Deck, es: seq<PointerEvent>)
    requires es != []
    requires forall k :: 0 <= k < |es| ==> Tracks(d.drag, es[k])
    ensures Moves(d, es).drag.dx == es[|es| - 1].clientX - d.drag.startX
    ensures Moves(d, es).drag.dy == es[|es| - 1].clientY - d.drag.startY
    ensures Moves(d, es).drag.startX == d.drag.startX && Moves(d, es).drag.startY == d.drag.startY
    ensures Moves(d, es).drag.pointerId == d.drag.pointerId && Moves(d, es).drag.isDown
    decreases |es|
  {
    var d' := PointerMove(d, es[0]);
    if |es| > 1 {
      assert forall k :: 0 <= k < |es[1..]| ==> Tracks(d'.drag, es[1..][k]) by {
        assert forall k :: 0 <= k < |es[1..]| ==> es[1..][k] == es[k + 1];
      }
      MovesMeasureFromPress(d', es[1..]);
    } else {
      assert Moves(d', es[1..]) == d';
    }
  }

  /** Once the axis is locked no later move of the gesture changes it. */
  lemma {:induction false} LockNeverReevaluated(d: Deck, es: seq<PointerEvent>)
    requires d.drag.lock != Unlocked
    ensures Moves(d, es).drag.lock == d.drag.lock
    decreases |es|
  {
    if es != [] {
      LockNeverReevaluated(PointerMove(d, es[0]), es[1..]);
    }
  }

  /** Under a vertical lock the card stays where it is for the rest of the
      gesture's moves. */
  lemma {:induction false} VerticalLockFreezesCard(d: Deck, es: seq<PointerEvent>)
    requires d.drag.lock == LockY
    ensures Moves(d, es).offsetX == d.offsetX
    ensures Moves(d, es).active == d.active
    decreases |es|
  {
    if es != [] {
      VerticalLockFreezesCard(PointerMove(d, es[0]), es[1..]);
    }
  }

  /** Moves never change the top card; only a release does. */
  lemma {:induction false} MovesKeepIndex(d: Deck, es: seq<PointerEvent>)
    ensures Moves(d, es).active == d.active && Moves(d, es).count == d.count
    decreases |es|
  {
    if es != [] {
      MovesKeepIndex(PointerMove(d, es[0]), es[1..]);
    }
  }

  /** A whole horizontal swipe: press, drag left by more than the threshold
      with little vertical motion, release. The next card comes to top. */
  lemma SwipeLeftGoesNext(d: Deck, id: int, x: int, y: int, dist: int)
    requires Valid(d) && dist > SwipeThreshold
    ensures
      var down := PointerEvent(Some(0), id, x, y);
      var move := PointerEvent(None, id, x - dist, y);
      var up := PointerEvent(None, id, x - dist, y);
      PointerUp(PointerMove(PointerDown(d, down), move), up).active == GoNext(d.count, d.active)
  {
  }

  /** A tap (a primary press and its release without a move) never changes
      the top card. */
  lemma TapKeepsIndex(d: Deck, e: PointerEvent)
    requires e.button == None || e.button == Some(0)
    ensures PointerUp(PointerDown(d, e), e).active == d.active
  {
  }

  /** The released distances of the five-card deck: 150 px left from the
      first card shows the second; 50 px left shows the first still. */
  lemma ReleaseExamples()
    ensures
      var g := Drag(true, Some(1), 200, 0, -150, 0, LockX);
      PointerUp(Deck(UpdateCount, 0, g, -150), PointerEvent(None, 1, 50, 0)).active == 1
    ensures
      var g := Drag(true, Some(1), 200, 0, -50, 0, LockX);
      PointerUp(Deck(UpdateCount, 0, g, -50), PointerEvent(None, 1, 150, 0)).active == 0
  {
  }
}
